=== FILE: README.md ===
# Cluster launcher for distributed evolution strategies, in Dafny

This project models `scripts/launch.py`, the launcher that starts one cluster
of cloud machines per experiment file. Each cluster has one master and an
auto-scaling group of workers. The model covers two parts of the launcher.

- **Boot scripts** (`BootScripts`, `boot_scripts.dfy`). These are the
  user-data shell scripts handed to the master and to each worker.
  - They are rendered character for character as the Python literals
    produce them. Two details of that rendering matter: the backslash-newline
    pairs in the master command are line continuations, and the `'\n'` given
    to `tr` is a real newline.
  - A script's redis set-up section is a list of `Line`s (comment, blank,
    command). This makes "which commands does each role execute" a question
    about lists rather than about substrings.
- **One experiment's launch** (`Launch`, `launch.dfy`). It is modelled as a
  trace of provider calls (`Trace.Event`).
  - The provider's answers are inputs (`Launch.Responses`): the spot
    request ids, whether the request was fulfilled, the instances handed out,
    and the two auto-scaling status codes.
  - A spot master's handle is built from its id alone, so the first read of
    its addresses makes the provider describe the instance
    (`Launch.AddressLookup`); that call is part of the trace.
  - Every `assert` the launcher makes, its failed region lookup and the spot
    waiter giving up are a `Launch.Failure`.
  - The user data of a call is recorded as the `BootScripts.Boot` it is
    built from. `BootScripts.UserData` renders that value to its script
    text, so trace properties and script-text properties are proved
    separately and joined through `Boot`.
  - The image choice lives in `ImageResolver` (`image_resolver.dfy`).

The launcher's loop over its experiment files is `Batch` (`batch.dfy`).
`Batch.LaunchAll` is a functional definition and `Batch.RunBatch` is the loop
that matches it. An uncaught assertion or provider error ends the whole
program, so the first failing experiment ends the batch.

The properties live in `launch_properties.dfy`: counts of each kind of call,
their order, the names, sizes and tags used, and which boot script each call
carries. `text.dfy` holds general facts about prefixes, suffixes and infixes
of concatenated strings. `trace.dfy` holds counting over traces.
`wrappers.dfy` holds `Option` and `Result`.

## Model

| member | source | states |
|---|---|---|
| `BootScripts.DisableHyperthreadingScript` | scripts/launch.py:18-27 | The hyperthreading step as its nine lines, each ending in a newline, with the `'\n'` given to `tr` rendered as a real line break. It takes no inputs, so every script embeds the same text; `BootScripts.ScriptLayout` places it right after the opening. |
| `BootScripts.DownloadAndRunScript` | scripts/launch.py:30-39 | The run step for a command: the `ubuntu` here-document opener, the command, the closing `EOF` line. Its layout is stated by `BootScripts.RunStepLayout`. |
| `BootScripts.RunStepLayout` | scripts/launch.py:30-39 | The run step opens the `ubuntu` login-shell here-document (update the checkout, activate the environment, enter `es-distributed`). It then holds the command verbatim and nothing else, and closes the here-document. |
| `BootScripts.ScriptLayout` | scripts/launch.py:51-100 | Both roles share one frame. It starts with the shebang and the logged brace group, then the hyperthreading step. It ends with the run step and the redirect to `/home/ubuntu/user_data.log`. It contains the role's redis set-up. |
| `BootScripts.RoleCommands` | scripts/launch.py:57-96 | The two roles' redis set-ups execute the same commands in the same order. The one exception is the worker's port rewrite, inserted after the snapshot setting. |
| `BootScripts.OnlyWorkerDisablesTcp` | scripts/launch.py:57-96 | The port-0 rewrite is executed by a role's set-up if and only if the role is the worker. |
| `BootScripts.ScriptFromTemplate` | scripts/launch.py:51-100 | A role's script is its fixed lines, split around the command. Before it come the prelude, the hyperthreading step, the role's redis set-up and the run step's opening, with the template's blank lines. After it, on the next line, come `EOF`, a blank line and the redirect to the log file. |
| `BootScripts.OnlyWorkerTemplateRewritesPort` | scripts/launch.py:51-100 | The port-0 rewrite is one of a role's fixed script lines if and only if the role is the worker. No other line of the master's template is that rewrite. |
| `BootScripts.CommandTextKeepsTcp` | scripts/launch.py:43-79 | No fixed text of either command holds the port rewrite: not the experiment-file redirection, not the master's arguments, not the worker's environment and program, not the socket path. The separators around the inputs are shorter than the rewrite. |
| `BootScripts.MakeMasterScript` | scripts/launch.py:42-71 | The master's script: the common frame around the master's redis set-up and a run step whose command writes the experiment text and starts the master. Its properties are stated by `BootScripts.MasterScriptShape`. |
| `BootScripts.MasterScriptShape` | scripts/launch.py:42-71 | The master script has the common frame. It writes the experiment text verbatim right after `cat > ~/experiment.json <<< '` and passes `--algo` followed by the algorithm. |
| `BootScripts.MakeWorkerScript` | scripts/launch.py:74-100 | A worker's script: the common frame around the worker's redis set-up and a run step whose command starts the workers against the master's address. It takes no experiment text. Its properties are stated by `BootScripts.WorkerScriptShape`. |
| `BootScripts.WorkerScriptShape` | scripts/launch.py:74-100 | The worker script has the common frame and holds the port rewrite as a whole line. Its arguments are `--master_host <ip> --algo <algo> --relay_socket_path /var/run/redis/redis.sock`, and they run on to the end of the here-document. |
| `ImageResolver.ResolveImage` | scripts/launch.py:166-169 | A region missing from the map is a lookup error. A mapped value is used when present. A mapped `None` falls back to `AWS_AMI`. The result is `None` only when both are `None`, and that is not an error. |
| `ImageResolver.SourceMapResolution` | scripts/launch.py:7-9 | With the launcher's own map, `us-east-2` resolves to `AWS_AMI` as read at load time, or to its current value if it was unset then. Every other region is a lookup error. |
| `ImageResolver.UnsetImageIsNotAnError` | scripts/launch.py:7-9 | With the environment unchanged, the known region resolves to `AWS_AMI` itself. An unset variable yields `None` rather than a failure. |
| `Launch.RunName` | scripts/launch.py:164 | The run name is the prefix, then `_`, then the time stamp, each part at its position. |
| `Launch.RunNameInjective` | scripts/launch.py:164 | For one prefix, two run names are equal if and only if their time stamps are equal. |
| `Launch.RoleTags` | scripts/launch.py:210-245 | The four tags of a role's machines: display name, role, prefix and run name. How the two roles' lists relate is stated by `Launch.RoleTagsAgree`. |
| `Launch.RoleTagsAgree` | scripts/launch.py:210-245 | Master and worker tags have the same four keys in the same order and the same `exp_prefix` and `exp_name`. They differ only in `es_dist_role` and the `-master`/`-worker` display suffix. |
| `Launch.StartMaster` | scripts/launch.py:171-209 | The master comes up if and only if it is on demand, or its spot request returned exactly one id and was fulfilled. The contract also gives the failure in each other case and the calls made: one spot request or one 1..1 creation, then the wait and the description. |
| `Launch.CreateFleet` | scripts/launch.py:220-248 | The launch configuration is always created. The scaling group is created only if the configuration returned 200, and it has the fleet's names, sizes, zone, cooldown and worker tags. Success holds if and only if both statuses are 200, and the contract says which status is reported otherwise. |
| `Launch.ConsoleUrl` | scripts/launch.py:252-255 | The console page reported for a launched run, with the region in both the host name and the query. `Launch.LaunchExperiment` states that a launched run reports it. |
| `Launch.AddressLookup` | scripts/launch.py:195-218 | The describe call that the first read of a spot master's addresses causes, because that master's handle holds only its id. An on-demand master's handle already holds its creation's answer, so there is no call. Its place in the trace is stated by `LaunchProperties.AddressLookupFollowsTagging`. |
| `Launch.LaunchExperiment` | scripts/launch.py:161-255 | An experiment makes no call exactly when its region is missing from the map. It then fails with a lookup failure. A launched run reports the run name and the console URL of the region. |
| `LaunchProperties.LaunchTraceShape` | scripts/launch.py:171-232 | A launch whose region is mapped makes the master's calls first. Only if the master came up do its tagging, the reading of its addresses and the workers' calls follow, in that order. |
| `LaunchProperties.MasterCounts` | scripts/launch.py:171-209 | Starting the master makes exactly the calls `MasterCallCount` counts, for every kind of call. |
| `LaunchProperties.FleetCounts` | scripts/launch.py:220-232 | The workers' calls are one launch configuration, plus one scaling group only when the configuration was accepted. |
| `LaunchProperties.LaunchCounts` | scripts/launch.py:161-255 | An experiment's calls, by kind, are the master's calls. Only if the master came up do one tagging, one description of a spot master's instance, one configuration and an accepted configuration's group follow. |
| `LaunchProperties.SpotMasterCalls` | scripts/launch.py:171-187 | A spot master causes exactly one spot request, for one instance, as the first call, and no on-demand creation. |
| `LaunchProperties.SpotRequestGuard` | scripts/launch.py:188 | If the spot request did not return exactly one id, the launch fails right after that one call. |
| `LaunchProperties.OnDemandMasterCalls` | scripts/launch.py:196-209 | An on-demand master causes exactly one creation with MinCount = MaxCount = 1, as the first call, and no spot request or wait. |
| `LaunchProperties.WaitFollowsSingleRequest` | scripts/launch.py:188-192 | The spot waiter runs only for a spot master whose request returned exactly one id. It awaits that id, right after the request. |
| `LaunchProperties.ConfigFollowsMasterTagging` | scripts/launch.py:210-229 | A launch configuration occurs only once the master is up. The calls before it are exactly the master's start, its tagging and, for a spot master, the description of its instance. It is named after the run, uses the worker instance type and boots with the worker script. |
| `LaunchProperties.AddressLookupFollowsTagging` | scripts/launch.py:195-218 | An instance is described only for a spot master that came up. The call describes the master's instance id and comes right after the master's tagging. |
| `LaunchProperties.GroupOnlyAfterAcceptedConfig` | scripts/launch.py:220-248 | At most one scaling group is created, and only after an accepted configuration, which it names. It is the launch's last call. |
| `LaunchProperties.LaunchedIff` | scripts/launch.py:166-251 | A launch succeeds if and only if the region is mapped, the master came up, and both auto-scaling calls returned 200. |
| `LaunchProperties.OutcomeTable` | scripts/launch.py:166-251 | How a launch ends, in the order the launcher meets its checks. The order is lookup, spot id count, spot fulfilment, configuration status, group status. |
| `LaunchProperties.FleetSizing` | scripts/launch.py:232-247 | Every scaling group has min = max = desired = cluster size, the run's name for group and configuration, the chosen zone only, cooldown 0 and the worker tags. |
| `LaunchProperties.MasterAndWorkersShareRun` | scripts/launch.py:210-245 | The master's tagging and the workers' group carry the same `exp_prefix` and `exp_name`. The tagging targets the master, and the roles read `master` and `worker`. |
| `LaunchProperties.MasterBootsWithExperiment` | scripts/launch.py:185-208 | The call that starts the master, with its user data at line 185 for a spot master and at line 208 on demand, carries the master script for the experiment's text and algorithm. |
| `LaunchProperties.MasterBootWritesExperiment` | scripts/launch.py:42-51 | The master's user data writes the experiment text verbatim to `~/experiment.json`. |
| `LaunchProperties.WorkersPointAtMaster` | scripts/launch.py:227 | Every launch configuration's user data is the worker script for the master's private address, formatted as Python formats it. |
| `LaunchProperties.WorkerBootNamesMaster` | scripts/launch.py:74-79 | A worker's user data passes the master's address, then the algorithm, then its own socket, and the command ends there. |
| `LaunchProperties.UnassignedAddressScript` | scripts/launch.py:79 | A master without a private address yet sends its workers to the host `None`, the text Python formats for a missing address. |
| `Batch.LaunchAll` | scripts/launch.py:153-255 | The batch over the experiment files launches at most one run per file. It ends without failure exactly when it launched one for every file. |
| `Batch.Sequence` | scripts/launch.py:153-255 | Playing runs in order: the batch has no failure if and only if every run launched. The launched names are those of the leading runs. A failure is that of the first run that did not launch. |
| `Batch.FailureEndsBatch` | scripts/launch.py:153-255 | Once a batch has failed, appending experiment files changes nothing: no later file is launched. |
| `Batch.LaunchedNames` | scripts/launch.py:161-164 | The i-th launched run is named after the i-th experiment's prefix and time stamp. |
| `Batch.BatchGroupCount` | scripts/launch.py:153-255 | A batch creates one scaling group per launched run, plus one if the batch failed on a scaling group's status. |
| `Batch.PlayAll` | scripts/launch.py:153-255 | The loop over experiments, for any per-experiment launch, makes the same calls and reaches the same launched runs and failure as `Batch.Sequence` of their runs. |
| `Batch.RunBatch` | scripts/launch.py:153-255 | The launcher's loop over its experiment files agrees with `Batch.LaunchAll`. |

## Left out

- Terminal and prompt handling is not modelled: command-line parsing, the `highlight` printing and the `click.confirm` prompt. The model launches every experiment it is given.
- Creating the cloud resource and client (and their credentials) is not modelled, nor are the calls themselves. The provider's answers are inputs, and each call is an event of the trace.
- Reading the experiment file and its `json.loads`/`json.dumps` are not modelled. The experiment is its `exp_prefix` and its JSON text, both given. A file that does not parse or lacks `exp_prefix` is not modelled.
- The clock reading `datetime.now().strftime(...)` is an input string, the time stamp.
- In the spot path the master's user data is base64-encoded. The trace records the boot script it encodes rather than the encoding.
- The master's public address is not modelled, since it is only printed. An `Instance` carries only its id and private address. The describe call that the first address read causes for a spot master is in the trace as `DescribeInstance`.
- Provider errors raised by the calls themselves are not modelled. These include a rejected request, an expired credential, or a spot request that is described but has no instance. The modelled failures are the lookup error, the `assert`s on the spot id count and on the two auto-scaling statuses, and the spot waiter giving up.
- `BootScripts.OnlyWorkerTemplateRewritesPort` and `BootScripts.CommandTextKeepsTcp` speak of the fixed text only. A master whose experiment text or algorithm name itself holds the port rewrite carries it in its script, and nothing excludes that.
- The generated scripts are text only. What the shell does with them is not modelled, for example quoting broken by a `'` in the experiment text.
- The command-line interface requires at least one experiment file. The model allows an empty batch, which launches nothing.
- `scripts/atari_envs.py` is not part of this model. It filters environment ids from external registries and has no logic of its own here.
- Image resolution, as the launcher does it:
  - An image id that neither the map nor `AWS_AMI` gives is not an error. The launch goes on with `None` as the image.
  - The next call then passes `ImageId=None`: the spot request, or the on-demand instance creation. The provider's client library rejects that argument before sending the request. That client-side error is not modelled, and the trace records the call with image `None`.
  - A region outside the map is a lookup error even when `AWS_AMI` is set. The global value is only consulted for a mapped `None`.
- Launch.CreateFleet: does not model the rejection of an unset `--spot_price`. The option has no default, so `spotPrice` is `None` unless it is given. The launcher always passes it as `SpotPrice` to the launch configuration call. The provider's client library rejects a `None` argument before sending, so in the launcher no run without `--spot_price` gets its workers. An on-demand master is already created and tagged at that point, and it is left running. The model records the call with price `None` and lets it succeed.
- Launch.StartMaster: does not model the same rejection for a spot master. The spot request's `SpotPrice=None` fails in the client library before any call is sent.
- LaunchProperties.LaunchedIff: inherits the unset spot price case. With `spotPrice == None` it states success where the launcher raises.
- LaunchProperties.OutcomeTable: inherits the unset spot price case, as `LaunchProperties.LaunchedIff` does.
- `--region_name` and `--zone` also have no default, but the model takes them as strings:
  - An unset region behaves like any unmapped one. The map lookup raises `KeyError`.
  - An unset zone would be rejected by the client library at the master's first call. That rejection is not modelled.
- No failure is caught. One failed experiment ends the whole batch, and the later experiment files are never launched.


=== FILE: batch.dfy ===
/**
 * The launcher's loop over its experiment files (scripts/launch.py, lines
 * 153-255): experiments are launched one after another, and the first one
 * that fails ends the whole batch, because the launcher does not catch the
 * failed assertion or the provider's error.
 */
module Batch {
  import opened Wrappers
  import opened Trace
  import opened Launch
  import opened LaunchProperties

  /** One experiment file's launch attempt: the experiment, the clock reading, the provider's answers. */
  datatype Attempt = Attempt(exp: Experiment, stamp: string, responses: Responses)

  /** The calls a batch made, the runs it launched, in order, and the failure that ended it, if any. */
  datatype BatchResult = BatchResult(trace: seq<Event>, launched: seq<string>, failure: Option<Failure>)

  /** A batch result with `trace` and `launched` played before it. */
  function Then(trace: seq<Event>, launched: seq<string>, rest: BatchResult): BatchResult {
    BatchResult(trace + rest.trace, launched + rest.launched, rest.failure)
  }

  /**
   * Plays runs in order until one fails: a batch ends without failure
   * exactly when every run launched, and otherwise with the failure of the
   * run right after the launched ones; the runs after it make no calls.
   */
  function Sequence(runs: seq<Run>): (r: BatchResult)
    ensures |r.launched| <= |runs|
    ensures r.failure.None? <==> |r.launched| == |runs|
    ensures forall i :: 0 <= i < |r.launched| ==>
      runs[i].outcome.Launched? && r.launched[i] == runs[i].outcome.runName
    ensures r.failure.Some? ==> runs[|r.launched|].outcome == Failed(r.failure.value)
  {
    if |runs| == 0 then BatchResult([], [], None)
    else
      match runs[0].outcome
      case Failed(f) => BatchResult(runs[0].trace, [], Some(f))
      case Launched(name, _) => Then(runs[0].trace, [name], Sequence(runs[1..]))
  }

  /** What each attempt's launch would do if the batch reached it. */
  function Runs(launch: Attempt -> Run, attempts: seq<Attempt>): (runs: seq<Run>)
    ensures |runs| == |attempts|
  {
    if |attempts| == 0 then [] else [launch(attempts[0])] + Runs(launch, attempts[1..])
  }

  /** The run at position `i` is the launch of the attempt at position `i`. */
  lemma {:induction false} RunsAt(launch: Attempt -> Run, attempts: seq<Attempt>, i: nat)
    requires i < |attempts|
    ensures Runs(launch, attempts)[i] == launch(attempts[i])
  {
    if i > 0 {
      RunsAt(launch, attempts[1..], i - 1);
    }
  }

  /** The runs of two lists of attempts, one after the other. */
  lemma {:induction false} RunsAppend(launch: Attempt -> Run, attempts: seq<Attempt>, more: seq<Attempt>)
    ensures Runs(launch, attempts + more) == Runs(launch, attempts) + Runs(launch, more)
  {
    if |attempts| == 0 {
      assert attempts + more == more;
    } else {
      assert (attempts + more)[0] == attempts[0];
      assert (attempts + more)[1..] == attempts[1..] + more;
      RunsAppend(launch, attempts[1..], more);
    }
  }

  /** Launching one attempt with the launcher's options and environment. */
  function Launcher(o: Options, env: Environment): Attempt -> Run {
    (a: Attempt) => LaunchExperiment(o, env, a.exp, a.stamp, a.responses)
  }

  /**
   * The launcher's batch over its experiment files, in the order given: it
   * launches at most one run per file, and ends without failure exactly when
   * it launched one for every file.
   */
  function LaunchAll(o: Options, env: Environment, attempts: seq<Attempt>): (r: BatchResult)
    ensures |r.launched| <= |attempts|
    ensures r.failure.None? <==> |r.launched| == |attempts|
  {
    Sequence(Runs(Launcher(o, env), attempts))
  }

  /** Once a sequence of runs has failed, the runs after it are never played. */
  lemma {:induction false} FailureEndsSequence(runs: seq<Run>, more: seq<Run>)
    requires Sequence(runs).failure.Some?
    ensures Sequence(runs + more) == Sequence(runs)
  {
    assert (runs + more)[0] == runs[0];
    if runs[0].outcome.Launched? {
      assert (runs + more)[1..] == runs[1..] + more;
      FailureEndsSequence(runs[1..], more);
    }
  }

  /** Once a batch has failed, the experiment files after it are never looked at. */
  lemma FailureEndsBatch(o: Options, env: Environment, attempts: seq<Attempt>, more: seq<Attempt>)
    requires LaunchAll(o, env, attempts).failure.Some?
    ensures LaunchAll(o, env, attempts + more) == LaunchAll(o, env, attempts)
  {
    RunsAppend(Launcher(o, env), attempts, more);
    FailureEndsSequence(Runs(Launcher(o, env), attempts), Runs(Launcher(o, env), more));
  }

  /** Every run a batch launched is named after its experiment's prefix and clock reading. */
  lemma LaunchedNames(o: Options, env: Environment, attempts: seq<Attempt>)
    ensures var r := LaunchAll(o, env, attempts);
      forall i :: 0 <= i < |r.launched| ==> r.launched[i] == RunName(attempts[i].exp.prefix, attempts[i].stamp)
  {
    var r := LaunchAll(o, env, attempts);
    forall i | 0 <= i < |r.launched|
      ensures r.launched[i] == RunName(attempts[i].exp.prefix, attempts[i].stamp)
    {
      RunsAt(Launcher(o, env), attempts, i);
    }
  }

  /** Whether a run created a scaling group: it launched, or only the group's status failed it. */
  predicate CreatedGroup(run: Run) {
    run.outcome.Launched? || (run.outcome.Failed? && run.outcome.failure.GroupRejected?)
  }

  /** One experiment creates a scaling group exactly when it launched or only the group's status failed it. */
  lemma RunGroupCount(o: Options, env: Environment, exp: Experiment, stamp: string, p: Responses)
    ensures Count(LaunchExperiment(o, env, exp, stamp, p).trace, GroupCreate)
         == if CreatedGroup(LaunchExperiment(o, env, exp, stamp, p)) then 1 else 0
  {
    GroupOnlyAfterAcceptedConfig(o, env, exp, stamp, p);
    OutcomeTable(o, env, exp, stamp, p);
  }

  /** Played in order, runs that each create at most their own group create one per launched run, plus the failed one's. */
  lemma {:induction false} SequenceGroupCount(runs: seq<Run>)
    requires forall i :: 0 <= i < |runs| ==>
      Count(runs[i].trace, GroupCreate) == if CreatedGroup(runs[i]) then 1 else 0
    ensures var r := Sequence(runs);
      Count(r.trace, GroupCreate) == |r.launched| + (if r.failure.Some? && r.failure.value.GroupRejected? then 1 else 0)
  {
    if |runs| > 0 {
      if runs[0].outcome.Launched? {
        SequenceGroupCount(runs[1..]);
        CountAppend(runs[0].trace, Sequence(runs[1..]).trace, GroupCreate);
      }
    }
  }

  /**
   * A batch creates one scaling group per launched run, plus one for an
   * experiment that failed only because its group was rejected.
   */
  lemma BatchGroupCount(o: Options, env: Environment, attempts: seq<Attempt>)
    ensures var r := LaunchAll(o, env, attempts);
      Count(r.trace, GroupCreate) == |r.launched| + (if r.failure.Some? && r.failure.value.GroupRejected? then 1 else 0)
  {
    var runs := Runs(Launcher(o, env), attempts);
    forall i | 0 <= i < |runs|
      ensures Count(runs[i].trace, GroupCreate) == if CreatedGroup(runs[i]) then 1 else 0
    {
      RunsAt(Launcher(o, env), attempts, i);
      RunGroupCount(o, env, attempts[i].exp, attempts[i].stamp, attempts[i].responses);
    }
    SequenceGroupCount(runs);
  }

  lemma ThenThen(t1: seq<Event>, l1: seq<string>, t2: seq<Event>, l2: seq<string>, r: BatchResult)
    ensures Then(t1, l1, Then(t2, l2, r)) == Then(t1 + t2, l1 + l2, r)
  {
    assert t1 + (t2 + r.trace) == (t1 + t2) + r.trace;
    assert l1 + (l2 + r.launched) == (l1 + l2) + r.launched;
  }

  /** One step of playing runs in order, with `trace` and `launched` already played. */
  lemma PlayStep(runs: seq<Run>, i: nat, trace: seq<Event>, launched: seq<string>)
    requires i < |runs|
    ensures runs[i].outcome.Failed? ==>
      Then(trace, launched, Sequence(runs[i..]))
        == BatchResult(trace + runs[i].trace, launched, Some(runs[i].outcome.failure))
    ensures runs[i].outcome.Launched? ==>
      Then(trace, launched, Sequence(runs[i..]))
        == Then(trace + runs[i].trace, launched + [runs[i].outcome.runName], Sequence(runs[i + 1..]))
  {
    assert runs[i..][0] == runs[i];
    assert runs[i..][1..] == runs[i + 1..];
    if runs[i].outcome.Launched? {
      ThenThen(trace, launched, runs[i].trace, [runs[i].outcome.runName], Sequence(runs[i + 1..]));
    } else {
      assert launched + [] == launched;
    }
  }

  /**
   * The launcher's loop, for any way of launching one attempt: launches the
   * attempts one by one and stops at the first failure.
   */
  method PlayAll(launch: Attempt -> Run, attempts: seq<Attempt>)
    returns (trace: seq<Event>, launched: seq<string>, failure: Option<Failure>)
    ensures BatchResult(trace, launched, failure) == Sequence(Runs(launch, attempts))
  {
    ghost var runs := Runs(launch, attempts);
    ghost var goal := Sequence(runs);
    assert runs[0..] == runs;
    assert Then([], [], goal) == goal;
    trace, launched, failure := [], [], None;
    var i := 0;
    while i < |attempts| && failure.None?
      invariant 0 <= i <= |attempts|
      invariant failure.None? ==> goal == Then(trace, launched, Sequence(runs[i..]))
      invariant failure.Some? ==> goal == BatchResult(trace, launched, failure)
    {
      var run := launch(attempts[i]);
      RunsAt(launch, attempts, i);
      PlayStep(runs, i, trace, launched);
      match run.outcome {
        case Failed(f) =>
          trace, failure := trace + run.trace, Some(f);
        case Launched(name, _) =>
          trace, launched := trace + run.trace, launched + [name];
      }
      i := i + 1;
    }
    if failure.None? {
      assert runs[i..] == [];
      assert trace + [] == trace && launched + [] == launched;
    }
  }

  /** The launcher's loop over its experiment files: the same calls, runs and failure as `LaunchAll`. */
  method RunBatch(o: Options, env: Environment, attempts: seq<Attempt>)
    returns (trace: seq<Event>, launched: seq<string>, failure: Option<Failure>)
    ensures BatchResult(trace, launched, failure) == LaunchAll(o, env, attempts)
  {
    trace, launched, failure := PlayAll(Launcher(o, env), attempts);
  }
}

=== FILE: boot_scripts.dfy ===
/**
 * The user-data boot scripts handed to the master and worker instances
 * (scripts/launch.py, lines 18-100). Each script is the same frame around
 * a hyperthreading-off step, a redis set-up that depends on the role, and
 * a step that runs the role's command as the `ubuntu` user.
 *
 * The texts are character-exact renderings of the Python literals after
 * Python has processed their escapes: the `'\n'` given to `tr` is a real
 * newline, and each backslash-newline pair in the master command is a line
 * continuation, so the master command is one long line.
 */
module BootScripts {
  import opened Text

  /** The two node roles of a cluster. */
  datatype Role = Master | Worker

  /** The lines that open every boot script: shebang, a brace group, tracing on. */
  function PreludeLines(): seq<string> {
    ["#!/bin/bash", "{", "set -x"]
  }

  /** Opening of every boot script. */
  const Prelude: string := Unlines(PreludeLines())

  /** Closing of every boot script: the brace group's output goes to the log file. */
  const Epilogue: string := "} >> /home/ubuntu/user_data.log 2>&1\n"

  /** The worker's redis edit that turns the TCP listener off. */
  const PortRewrite: string := "sed -ie \"s/port 6379/port 0/\" /etc/redis/redis.conf"

  /** Path of the redis unix socket, shared by both roles. */
  const RedisSocket: string := "/var/run/redis/redis.sock"

  /**
   * The lines that open the run step: a here-document executed by a login
   * shell of `ubuntu`, which updates the checkout and activates its environment.
   */
  function RunStepLines(): seq<string> {
    ["su -l ubuntu <<'EOF'", "set -x", "cd ~/Git/neuroevolved-agents/", "git pull", ". env/bin/activate", "cd es-distributed"]
  }

  /** Start of the run step. */
  const RunAsUbuntu: string := Unlines(RunStepLines())

  /** End of the run step: the line that closes the here-document. */
  const HereDocEnd: string := "\nEOF\n"

  /** The master command's shell redirection that writes the experiment file. */
  const ExperimentFileWrite: string := "cat > ~/experiment.json <<< '"

  /**
   * The lines of the step that takes every hyperthread sibling CPU offline;
   * the step has no inputs. The newline given to `tr` is a real newline in
   * the launcher's text, so it splits that pipeline over two lines.
   */
  function HyperthreadingLines(): seq<string> {
    ["",
     "# disable hyperthreading",
     "# https://forums.aws.amazon.com/message.jspa?messageID=189757",
     "for cpunum in $(",
     "    cat /sys/devices/system/cpu/cpu*/topology/thread_siblings_list |",
     "    sed 's/-/,/g' | cut -s -d, -f2- | tr ',' '",
     "' | sort -un); do",
     "        echo 0 > /sys/devices/system/cpu/cpu$cpunum/online",
     "done"]
  }

  /** The text of the hyperthreading step. */
  function DisableHyperthreadingScript(): string {
    Unlines(HyperthreadingLines())
  }

  /** Runs `cmd` as `ubuntu` after updating the checkout and activating its environment. */
  function DownloadAndRunScript(cmd: string): string {
    RunAsUbuntu + cmd + HereDocEnd
  }

  /**
   * The run step opens the `ubuntu` here-document, holds `cmd` verbatim and
   * nothing else, and closes the here-document.
   */
  lemma RunStepLayout(cmd: string)
    ensures |DownloadAndRunScript(cmd)| == |RunAsUbuntu| + |cmd| + |HereDocEnd|
    ensures StartsWith(DownloadAndRunScript(cmd), RunAsUbuntu) && EndsWith(DownloadAndRunScript(cmd), HereDocEnd)
    ensures DownloadAndRunScript(cmd)[|RunAsUbuntu|..|RunAsUbuntu| + |cmd|] == cmd
  {
    var r := DownloadAndRunScript(cmd);
    assert r[..|RunAsUbuntu|] == RunAsUbuntu;
    assert r[|r| - |HereDocEnd|..] == HereDocEnd;
    assert r[|RunAsUbuntu|..|RunAsUbuntu| + |cmd|] == cmd;
  }

  /** A line of a set-up section: a comment, a blank line, or a shell command. */
  datatype Line = Comment(note: string) | Blank | Command(cmd: string)

  /** The text of one line, without its newline. */
  function Render(line: Line): string {
    match line
    case Comment(note) => "# " + note
    case Blank => ""
    case Command(cmd) => cmd
  }

  /** The texts of a section's lines, in order. */
  function RenderAll(lines: seq<Line>): seq<string> {
    seq(|lines|, i requires 0 <= i < |lines| => Render(lines[i]))
  }

  /** Redis set-up lines that both roles start with: no snapshots. */
  function SnapshotSetup(): seq<Line> {
    [Comment("Disable redis snapshots"), Command("echo 'save \"\"' >> /etc/redis/redis.conf"), Blank]
  }

  /** The role-specific lines: the master keeps TCP for its workers, a worker turns it off. */
  function SocketHeader(role: Role): seq<Line> {
    match role
    case Master =>
      [Comment("Make the unix domain socket available for the master client"),
       Comment("(TCP is still enabled for workers/relays)")]
    case Worker =>
      [Comment("Make redis use a unix domain socket and disable TCP sockets"), Command(PortRewrite)]
  }

  /** Redis set-up lines that both roles end with: a world-writable unix socket, then a restart. */
  function SocketSetup(): seq<Line> {
    [Command("echo \"unixsocket /var/run/redis/redis.sock\" >> /etc/redis/redis.conf"),
     Command("echo \"unixsocketperm 777\" >> /etc/redis/redis.conf"),
     Command("mkdir -p /var/run/redis"),
     Command("chown ubuntu:ubuntu /var/run/redis"),
     Blank,
     Command("systemctl restart redis")]
  }

  /** The lines of a role's redis set-up section. */
  function RedisSetup(role: Role): seq<Line> {
    SnapshotSetup() + SocketHeader(role) + SocketSetup()
  }

  /** The text of a role's redis set-up section. */
  function RedisSetupText(role: Role): string {
    Unlines(RenderAll(RedisSetup(role)))
  }

  /** The commands a section executes, in order; comments and blank lines are dropped. */
  function Commands(lines: seq<Line>): seq<string> {
    if |lines| == 0 then []
    else if lines[0].Command? then [lines[0].cmd] + Commands(lines[1..])
    else Commands(lines[1..])
  }

  /** A command is executed exactly when the section holds it as a command line. */
  lemma {:induction false} CommandsMembership(lines: seq<Line>, c: string)
    ensures c in Commands(lines) <==> Command(c) in lines
  {
    if |lines| > 0 {
      CommandsMembership(lines[1..], c);
      assert lines == [lines[0]] + lines[1..];
    }
  }

  lemma {:induction false} CommandsAppend(xs: seq<Line>, ys: seq<Line>)
    ensures Commands(xs + ys) == Commands(xs) + Commands(ys)
  {
    if |xs| == 0 {
      assert xs + ys == ys;
    } else {
      assert (xs + ys)[1..] == xs[1..] + ys;
      CommandsAppend(xs[1..], ys);
    }
  }

  /** The master's role-specific lines are comments; the worker's add the port rewrite. */
  lemma HeaderCommands()
    ensures Commands(SocketHeader(Master)) == []
    ensures Commands(SocketHeader(Worker)) == [PortRewrite]
  {
    var m := SocketHeader(Master);
    assert m[1..][1..] == [];
    var w := SocketHeader(Worker);
    assert w[1..][1..] == [];
  }

  /**
   * The only command in which the two roles' redis set-ups differ is the
   * worker's port rewrite; everything else they execute is the same, in
   * the same order.
   */
  lemma RoleCommands()
    ensures Commands(RedisSetup(Master)) == Commands(SnapshotSetup()) + Commands(SocketSetup())
    ensures Commands(RedisSetup(Worker)) == Commands(SnapshotSetup()) + [PortRewrite] + Commands(SocketSetup())
  {
    HeaderCommands();
    CommandsAppend(SnapshotSetup() + SocketHeader(Master), SocketSetup());
    CommandsAppend(SnapshotSetup(), SocketHeader(Master));
    CommandsAppend(SnapshotSetup() + SocketHeader(Worker), SocketSetup());
    CommandsAppend(SnapshotSetup(), SocketHeader(Worker));
  }

  /** Neither role's shared set-up lines rewrite the port: every one of them has another length. */
  lemma PortRewriteNotShared()
    ensures PortRewrite !in Commands(SnapshotSetup()) && PortRewrite !in Commands(SocketSetup())
  {
    assert |PortRewrite| == 51;
    assert forall l :: l in SnapshotSetup() + SocketSetup() ==> |Render(l)| != 51;
    CommandsMembership(SnapshotSetup(), PortRewrite);
    CommandsMembership(SocketSetup(), PortRewrite);
  }

  /** The worker's set-up rewrites the redis port and the master's never does. */
  lemma OnlyWorkerDisablesTcp(role: Role)
    ensures PortRewrite in Commands(RedisSetup(role)) <==> role == Worker
  {
    RoleCommands();
    PortRewriteNotShared();
  }

  /**
   * The boot script of `role` running `cmd`: both roles share this one
   * frame and differ only in their redis set-up lines and their command.
   */
  function Script(role: Role, cmd: string): string {
    Prelude + "\n" + DisableHyperthreadingScript() + "\n" + ("\n" + RedisSetupText(role))
    + "\n" + DownloadAndRunScript(cmd) + "\n" + Epilogue
  }

  /**
   * The frame of every boot script: the logged brace group opens with the
   * hyperthreading step, closes right after the run step, and holds the
   * role's redis set-up in between.
   */
  lemma ScriptLayout(role: Role, cmd: string)
    ensures StartsWith(Script(role, cmd), Prelude) && EndsWith(Script(role, cmd), Epilogue)
    ensures StartsWith(Script(role, cmd), Prelude + "\n" + DisableHyperthreadingScript())
    ensures EndsWith(Script(role, cmd), DownloadAndRunScript(cmd) + "\n" + Epilogue)
    ensures Contains(Script(role, cmd), DisableHyperthreadingScript())
    ensures Contains(Script(role, cmd), "\n" + RedisSetupText(role))
    ensures Contains(Script(role, cmd), DownloadAndRunScript(cmd))
  {
    FiveParts(Prelude, DisableHyperthreadingScript(), "\n" + RedisSetupText(role), DownloadAndRunScript(cmd), Epilogue, "\n");
  }

  /** The fixed lines before the redis set-up: the prelude and the hyperthreading step, each followed by blank lines. */
  function FrameLead(): seq<string> {
    PreludeLines() + [""] + HyperthreadingLines() + ["", ""]
  }

  /**
   * The fixed lines of a role's script before its command: the prelude, the
   * hyperthreading step, the role's redis set-up and the run step's opening,
   * with the blank lines the frame puts between them.
   */
  function TemplateHead(role: Role): seq<string> {
    FrameLead() + RenderAll(RedisSetup(role)) + [""] + RunStepLines()
  }

  /** The fixed lines after the command: the here-document's end, a blank line, the log redirection. */
  function TemplateTail(): seq<string> {
    ["EOF", "", "} >> /home/ubuntu/user_data.log 2>&1"]
  }

  /** Every fixed line of a role's script, leaving out only the command. */
  function TemplateLines(role: Role): seq<string> {
    TemplateHead(role) + TemplateTail()
  }

  lemma TailText()
    ensures "\n" + Unlines(TemplateTail()) == HereDocEnd + "\n" + Epilogue
  {
  }

  /**
   * A script is its fixed lines before the command, the command itself on
   * the line after them, and the fixed lines after it.
   */
  lemma ScriptFromTemplate(role: Role, cmd: string)
    ensures Script(role, cmd) == Unlines(TemplateHead(role)) + cmd + "\n" + Unlines(TemplateTail())
  {
    FrameJoin(PreludeLines(), HyperthreadingLines(), RenderAll(RedisSetup(role)), RunStepLines());
    TailText();
    FrameClose(Prelude + "\n" + DisableHyperthreadingScript() + "\n" + ("\n" + RedisSetupText(role)) + "\n",
               RunAsUbuntu, cmd, HereDocEnd, Epilogue, Unlines(TemplateTail()));
  }

  /** No line of the hyperthreading step is the port rewrite: every one has another length. */
  lemma HyperthreadingKeepsTcp()
    ensures PortRewrite !in HyperthreadingLines()
  {
    var h := HyperthreadingLines();
    assert |PortRewrite| == 51;
    assert |h[0]| == 0 && |h[1]| == 24 && |h[2]| == 61;
    assert |h[3]| == 16 && |h[4]| == 68 && |h[5]| == 46;
    assert |h[6]| == 17 && |h[7]| == 58 && |h[8]| == 4;
  }

  /** No line of the frame before the redis set-up is the port rewrite. */
  lemma LeadKeepsTcp()
    ensures PortRewrite !in FrameLead()
  {
    HyperthreadingKeepsTcp();
    assert |PortRewrite| == 51;
    assert forall l :: l in PreludeLines() ==> |l| != 51;
  }

  /** No line of the frame after the redis set-up is the port rewrite: every one has another length. */
  lemma TrailKeepsTcp()
    ensures PortRewrite !in RunStepLines() && PortRewrite !in TemplateTail()
  {
    assert |PortRewrite| == 51;
    assert forall l :: l in RunStepLines() ==> |l| != 51;
    assert forall l :: l in TemplateTail() ==> |l| != 51;
  }

  /** The port rewrite is a line of the worker's redis set-up. */
  lemma WorkerRedisRewritesPort()
    ensures PortRewrite in RenderAll(RedisSetup(Worker))
  {
    assert RenderAll(RedisSetup(Worker))[4] == PortRewrite;
  }

  /** No line of the master's redis set-up is the port rewrite. */
  lemma MasterRedisKeepsTcp()
    ensures PortRewrite !in RenderAll(RedisSetup(Master))
  {
    assert |PortRewrite| == 51;
    assert forall l :: l in RedisSetup(Master) ==> |Render(l)| != 51;
  }

  /** The master's fixed lines keep the redis TCP port: none of them is the port rewrite. */
  lemma MasterTemplateKeepsTcp()
    ensures PortRewrite !in TemplateLines(Master)
  {
    LeadKeepsTcp();
    MasterRedisKeepsTcp();
    TrailKeepsTcp();
  }

  /** The port rewrite is one of a worker's fixed lines. */
  lemma WorkerTemplateRewritesPort()
    ensures PortRewrite in TemplateLines(Worker)
  {
    WorkerRedisRewritesPort();
  }

  /**
   * The port rewrite is one of the fixed lines of a worker's script, and of
   * none of the master's: the master's redis keeps its TCP port.
   */
  lemma OnlyWorkerTemplateRewritesPort(role: Role)
    ensures PortRewrite in TemplateLines(role) <==> role == Worker
  {
    MasterTemplateKeepsTcp();
    WorkerTemplateRewritesPort();
  }

  /**
   * The master's fixed arguments between the experiment file and the
   * algorithm, one piece per line of the launcher's text; each line
   * continuation leaves a run of spaces.
   */
  const MasterArgs: string :=
    "python -m es_distributed.main master" + "     --master_socket_path " + RedisSocket
    + "     --log_dir ~" + "     --exp_file ~/experiment.json" + "     "

  /** The worker's fixed environment and program, before its arguments. */
  const WorkerProgram: string :=
    "MKL_NUM_THREADS=1 " + "OPENBLAS_NUM_THREADS=1 " + "OMP_NUM_THREADS=1 " + "python -m es_distributed.main workers "

  /** The master's command: store the experiment text, then start the master process. */
  function MasterCommand(expStr: string, algo: string): string {
    "\n" + (ExperimentFileWrite + expStr + "'\n") + MasterArgs + ("--algo " + algo + " \n") + "    "
  }

  /** The worker's arguments: the master's address, the algorithm, its own redis socket. */
  function WorkerArgs(masterPrivateIp: string, algo: string): string {
    "--master_host " + masterPrivateIp + " --algo " + algo + " --relay_socket_path " + RedisSocket
  }

  /** The worker's command: start the worker processes against the master's address. */
  function WorkerCommand(masterPrivateIp: string, algo: string): string {
    WorkerProgram + WorkerArgs(masterPrivateIp, algo)
  }

  lemma MasterProgramLacksQuote()
    ensures '"' !in "python -m es_distributed.main master" + "     --master_socket_path " + RedisSocket
  {
    assert '"' !in "python -m es_distributed.main master";
    assert '"' !in "     --master_socket_path ";
    assert '"' !in RedisSocket;
  }

  lemma MasterArgsLackQuote()
    ensures '"' !in MasterArgs
  {
    MasterProgramLacksQuote();
    assert '"' !in "     --log_dir ~";
    assert '"' !in "     --exp_file ~/experiment.json";
  }

  lemma WorkerEnvironmentLacksQuote()
    ensures '"' !in "MKL_NUM_THREADS=1 " + "OPENBLAS_NUM_THREADS=1 " + "OMP_NUM_THREADS=1 "
  {
    assert '"' !in "MKL_NUM_THREADS=1 ";
    assert '"' !in "OPENBLAS_NUM_THREADS=1 ";
    assert '"' !in "OMP_NUM_THREADS=1 ";
  }

  lemma WorkerProgramLacksQuote()
    ensures '"' !in WorkerProgram
  {
    WorkerEnvironmentLacksQuote();
    assert '"' !in "python -m es_distributed.main workers ";
  }

  /**
   * No fixed piece of either command holds the port rewrite: the long ones
   * lack its quote character, and the separators around the inputs are
   * shorter than it.
   */
  lemma CommandTextKeepsTcp()
    ensures !Contains(ExperimentFileWrite, PortRewrite) && !Contains(MasterArgs, PortRewrite)
    ensures !Contains(WorkerProgram, PortRewrite) && !Contains(RedisSocket, PortRewrite)
    ensures !Contains("'\n", PortRewrite) && !Contains("--algo ", PortRewrite) && !Contains(" \n", PortRewrite)
    ensures !Contains("    ", PortRewrite) && !Contains("\n", PortRewrite)
    ensures !Contains("--master_host ", PortRewrite) && !Contains(" --algo ", PortRewrite)
    ensures !Contains(" --relay_socket_path ", PortRewrite)
  {
    assert PortRewrite[8] == '"';
    assert '"' !in ExperimentFileWrite && '"' !in RedisSocket;
    MasterArgsLackQuote();
    WorkerProgramLacksQuote();
    MissingCharacter(ExperimentFileWrite, PortRewrite, 8);
    MissingCharacter(RedisSocket, PortRewrite, 8);
    MissingCharacter(MasterArgs, PortRewrite, 8);
    MissingCharacter(WorkerProgram, PortRewrite, 8);
  }

  /** Every part of a command reaches the script that runs it. */
  lemma CommandReachesScript(role: Role, cmd: string, part: string)
    requires Contains(cmd, part)
    ensures Contains(Script(role, cmd), part)
  {
    ScriptLayout(role, cmd);
    ContainsInMiddle(RunAsUbuntu, cmd, HereDocEnd);
    ContainsTransitive(DownloadAndRunScript(cmd), cmd, part);
    ContainsTransitive(Script(role, cmd), DownloadAndRunScript(cmd), part);
  }

  /** The master's boot script, built from the experiment text and the algorithm name. */
  function MakeMasterScript(expStr: string, algo: string): string {
    Script(Master, MasterCommand(expStr, algo))
  }

  /**
   * The master's script is the common frame around the hyperthreading step
   * and the master's run step; it writes the experiment text verbatim into
   * the experiment file and passes the algorithm name to the master.
   */
  lemma MasterScriptShape(expStr: string, algo: string)
    ensures StartsWith(MakeMasterScript(expStr, algo), Prelude)
    ensures EndsWith(MakeMasterScript(expStr, algo), Epilogue)
    ensures StartsWith(MakeMasterScript(expStr, algo), Prelude + "\n" + DisableHyperthreadingScript())
    ensures EndsWith(MakeMasterScript(expStr, algo), DownloadAndRunScript(MasterCommand(expStr, algo)) + "\n" + Epilogue)
    ensures Contains(MakeMasterScript(expStr, algo), ExperimentFileWrite + expStr + "'\n")
    ensures Contains(MakeMasterScript(expStr, algo), "--algo " + algo + " \n")
  {
    ScriptLayout(Master, MasterCommand(expStr, algo));
    TwoMarkedParts("\n", ExperimentFileWrite + expStr + "'\n", MasterArgs, "--algo " + algo + " \n", "    ");
    CommandReachesScript(Master, MasterCommand(expStr, algo), ExperimentFileWrite + expStr + "'\n");
    CommandReachesScript(Master, MasterCommand(expStr, algo), "--algo " + algo + " \n");
  }

  /** The port rewrite is a whole line of the worker's redis set-up section. */
  lemma PortRewriteIsWorkerLine()
    ensures Contains("\n" + RedisSetupText(Worker), "\n" + PortRewrite + "\n")
  {
    assert RenderAll(RedisSetup(Worker))[4] == PortRewrite;
    UnlinesHasWholeLine(RenderAll(RedisSetup(Worker)), 4);
  }

  /** The port rewrite is a whole line of every worker script. */
  lemma WorkerRewritesPort(cmd: string)
    ensures Contains(Script(Worker, cmd), "\n" + PortRewrite + "\n")
  {
    PortRewriteIsWorkerLine();
    ScriptLayout(Worker, cmd);
    ContainsTransitive(Script(Worker, cmd), "\n" + RedisSetupText(Worker), "\n" + PortRewrite + "\n");
  }

  /** The worker's arguments run on to the end of the here-document that runs them. */
  lemma WorkerArgsEndRunStep(masterPrivateIp: string, algo: string)
    ensures Contains(DownloadAndRunScript(WorkerCommand(masterPrivateIp, algo)),
                     WorkerArgs(masterPrivateIp, algo) + HereDocEnd)
  {
    TailRunsOn(RunAsUbuntu, WorkerProgram, WorkerArgs(masterPrivateIp, algo), HereDocEnd);
  }

  /** The worker's arguments run on to the end of the here-document in its script. */
  lemma WorkerArgsEndCommand(masterPrivateIp: string, algo: string)
    ensures Contains(Script(Worker, WorkerCommand(masterPrivateIp, algo)),
                     WorkerArgs(masterPrivateIp, algo) + HereDocEnd)
  {
    var cmd := WorkerCommand(masterPrivateIp, algo);
    WorkerArgsEndRunStep(masterPrivateIp, algo);
    ScriptLayout(Worker, cmd);
    ContainsTransitive(Script(Worker, cmd), DownloadAndRunScript(cmd), WorkerArgs(masterPrivateIp, algo) + HereDocEnd);
  }

  /** A worker's boot script, built from the master's private address and the algorithm name. */
  function MakeWorkerScript(masterPrivateIp: string, algo: string): string {
    Script(Worker, WorkerCommand(masterPrivateIp, algo))
  }

  /**
   * A worker's script is the common frame around the hyperthreading step
   * and the worker's run step; it turns the redis TCP port off, and its
   * command names the master's address, then the algorithm, then its own
   * socket, and ends there.
   */
  lemma WorkerScriptShape(masterPrivateIp: string, algo: string)
    ensures StartsWith(MakeWorkerScript(masterPrivateIp, algo), Prelude)
    ensures EndsWith(MakeWorkerScript(masterPrivateIp, algo), Epilogue)
    ensures StartsWith(MakeWorkerScript(masterPrivateIp, algo), Prelude + "\n" + DisableHyperthreadingScript())
    ensures EndsWith(MakeWorkerScript(masterPrivateIp, algo),
                     DownloadAndRunScript(WorkerCommand(masterPrivateIp, algo)) + "\n" + Epilogue)
    ensures Contains(MakeWorkerScript(masterPrivateIp, algo), "\n" + PortRewrite + "\n")
    ensures Contains(MakeWorkerScript(masterPrivateIp, algo), WorkerArgs(masterPrivateIp, algo) + HereDocEnd)
  {
    ScriptLayout(Worker, WorkerCommand(masterPrivateIp, algo));
    WorkerArgsEndCommand(masterPrivateIp, algo);
    WorkerRewritesPort(WorkerCommand(masterPrivateIp, algo));
  }

  /**
   * A boot script named by the inputs it is built from; `UserData` gives
   * its text, the user data an instance receives.
   */
  datatype Boot = MasterBoot(expStr: string, algo: string) | WorkerBoot(masterPrivateIp: string, algo: string)

  function UserData(b: Boot): string {
    match b
    case MasterBoot(expStr, algo) => MakeMasterScript(expStr, algo)
    case WorkerBoot(masterPrivateIp, algo) => MakeWorkerScript(masterPrivateIp, algo)
  }
}

=== FILE: image_resolver.dfy ===
/**
 * Choice of the machine image for a region (scripts/launch.py, lines 7-9
 * and 166-169): a lookup in the region map, falling back to the `AWS_AMI`
 * environment value only when the mapped value is `None`.
 */
module ImageResolver {
  import opened Wrappers

  /** The one region the launcher knows. */
  const KnownRegion: string := "us-east-2"

  /** A region missing from the map: Python's `KeyError` on the lookup. */
  datatype LookupError = KeyError(region: string)

  /**
   * The launcher's region map as built when the module is loaded: its one
   * region is mapped to whatever `AWS_AMI` held at that moment.
   */
  function SourceAmiMap(awsAmiAtLoad: Option<string>): map<string, Option<string>> {
    map[KnownRegion := awsAmiAtLoad]
  }

  /**
   * The image id for `region`. A region outside the map is a lookup error;
   * a mapped `None` falls back to `awsAmi`, which may itself be `None`, and
   * that is not an error.
   */
  function ResolveImage(amiMap: map<string, Option<string>>, region: string, awsAmi: Option<string>)
    : (r: Result<Option<string>, LookupError>)
    ensures r.Failure? <==> region !in amiMap
    ensures r.Failure? ==> r.error == KeyError(region)
    ensures r.Success? && amiMap[region].Some? ==> r.value == amiMap[region]
    ensures r.Success? && amiMap[region].None? ==> r.value == awsAmi
    ensures r.Success? && r.value.None? ==> amiMap[region].None? && awsAmi.None?
  {
    if region !in amiMap then Failure(KeyError(region))
    else if amiMap[region].None? then Success(awsAmi)
    else Success(amiMap[region])
  }

  /**
   * With the launcher's own map, the known region resolves to the value
   * `AWS_AMI` had at load time if it was set, and otherwise to its current
   * value; every other region is a lookup error.
   */
  lemma SourceMapResolution(awsAmiAtLoad: Option<string>, awsAmiNow: Option<string>, region: string)
    ensures region == KnownRegion ==>
      ResolveImage(SourceAmiMap(awsAmiAtLoad), region, awsAmiNow)
        == Success(if awsAmiAtLoad.Some? then awsAmiAtLoad else awsAmiNow)
    ensures region != KnownRegion ==>
      ResolveImage(SourceAmiMap(awsAmiAtLoad), region, awsAmiNow) == Failure(KeyError(region))
  {
  }

  /**
   * When the environment does not change between load time and launch, the
   * known region resolves to `AWS_AMI` itself, and an unset variable gives
   * `None` rather than an error.
   */
  lemma UnsetImageIsNotAnError(awsAmi: Option<string>)
    ensures ResolveImage(SourceAmiMap(awsAmi), KnownRegion, awsAmi) == Success(awsAmi)
    ensures awsAmi.None? ==> ResolveImage(SourceAmiMap(awsAmi), KnownRegion, awsAmi).Success?
  {
  }
}

=== FILE: launch.dfy ===
/**
 * One experiment's launch (scripts/launch.py, lines 161-255): name the run,
 * pick the image, start and tag the master (on demand or as a spot request),
 * read its addresses, then create the workers' launch configuration and
 * scaling group. Every provider call is an event of the run's trace; the
 * provider's answers are inputs, and each `assert` or exception of the
 * launcher is a `Failure`.
 */
module Launch {
  import opened Wrappers
  import opened Text
  import opened BootScripts
  import opened ImageResolver
  import opened Trace

  /** The launcher's parsed command-line options. */
  datatype Options = Options(
    algorithm: string,
    keyName: string,
    spotPrice: Option<string>,
    region: string,
    zone: string,
    clusterSize: int,
    spotMaster: bool,
    masterInstanceType: string,
    workerInstanceType: string,
    securityGroup: string)

  /** What the launcher reads outside its options: the region map and `AWS_AMI`. */
  datatype Environment = Environment(amiMap: map<string, Option<string>>, awsAmi: Option<string>)

  /** An experiment: its `exp_prefix` field and its JSON text. */
  datatype Experiment = Experiment(prefix: string, text: string)

  /**
   * An instance as the provider describes it: its id and its private
   * address, which is `None` until one is assigned. Its public address is
   * only printed, so it is not kept.
   */
  datatype Instance = Instance(id: string, privateIp: Option<string>)

  /** The provider's answers to one experiment's calls. */
  datatype Responses = Responses(
    spotRequestIds: seq<string>,
    spotFulfilled: bool,
    spotInstance: Instance,
    createdInstance: Instance,
    configStatus: int,
    groupStatus: int)

  /** Why an experiment's launch stopped. */
  datatype Failure =
    | ImageLookupFailed(region: string)
    | SpotRequestCount(count: nat)
    | SpotNotFulfilled(requestId: string)
    | ConfigRejected(status: int)
    | GroupRejected(status: int)

  datatype Outcome = Launched(runName: string, consoleUrl: string) | Failed(failure: Failure)

  /** The calls one experiment made, and how it ended. */
  datatype Run = Run(trace: seq<Event>, outcome: Outcome)

  /** The HTTP status the launcher requires of both auto-scaling calls. */
  const Ok: int := 200

  /** The run name: the experiment prefix, an underscore, and the launch time stamp. */
  function RunName(prefix: string, stamp: string): (name: string)
    ensures |name| == |prefix| + 1 + |stamp|
    ensures name[..|prefix|] == prefix
    ensures name[|prefix|] == '_'
    ensures name[|prefix| + 1..] == stamp
  {
    prefix + "_" + stamp
  }

  /** Within one prefix, run names tell their time stamps apart. */
  lemma RunNameInjective(prefix: string, stamp1: string, stamp2: string)
    ensures RunName(prefix, stamp1) == RunName(prefix, stamp2) <==> stamp1 == stamp2
  {
    if RunName(prefix, stamp1) == RunName(prefix, stamp2) {
      assert stamp1 == RunName(prefix, stamp1)[|prefix| + 1..];
    }
  }

  function RoleName(role: Role): string {
    match role
    case Master => "master"
    case Worker => "worker"
  }

  /** The suffix of a role's display name. */
  function DisplaySuffix(role: Role): string {
    match role
    case Master => "-master"
    case Worker => "-worker"
  }

  /** The four tags of a role's machines in a run. */
  function RoleTags(role: Role, prefix: string, name: string): seq<Tag> {
    [Tag("Name", name + DisplaySuffix(role)),
     Tag("es_dist_role", RoleName(role)),
     Tag("exp_prefix", prefix),
     Tag("exp_name", name)]
  }

  /** The value of the first tag with `key`, if any. */
  function TagValue(tags: seq<Tag>, key: string): Option<string> {
    if |tags| == 0 then None
    else if tags[0].key == key then Some(tags[0].value)
    else TagValue(tags[1..], key)
  }

  /**
   * The master's and the workers' tags have the same keys in the same order
   * and the same `exp_prefix` and `exp_name`; they differ only in the role
   * and in the suffix of the display name.
   */
  lemma RoleTagsAgree(prefix: string, name: string)
    ensures |RoleTags(Master, prefix, name)| == |RoleTags(Worker, prefix, name)| == 4
    ensures forall i :: 0 <= i < 4 ==> RoleTags(Master, prefix, name)[i].key == RoleTags(Worker, prefix, name)[i].key
    ensures TagValue(RoleTags(Master, prefix, name), "exp_prefix") == Some(prefix)
    ensures TagValue(RoleTags(Worker, prefix, name), "exp_prefix") == Some(prefix)
    ensures TagValue(RoleTags(Master, prefix, name), "exp_name") == Some(name)
    ensures TagValue(RoleTags(Worker, prefix, name), "exp_name") == Some(name)
    ensures TagValue(RoleTags(Master, prefix, name), "es_dist_role") == Some("master")
    ensures TagValue(RoleTags(Worker, prefix, name), "es_dist_role") == Some("worker")
    ensures TagValue(RoleTags(Master, prefix, name), "Name") == Some(name + "-master")
    ensures TagValue(RoleTags(Worker, prefix, name), "Name") == Some(name + "-worker")
  {
    RoleTagLookup(Master, prefix, name);
    RoleTagLookup(Worker, prefix, name);
  }

  /** Looking up each of the four keys in a role's tags, one tag at a time. */
  lemma RoleTagLookup(role: Role, prefix: string, name: string)
    ensures TagValue(RoleTags(role, prefix, name), "Name") == Some(name + DisplaySuffix(role))
    ensures TagValue(RoleTags(role, prefix, name), "es_dist_role") == Some(RoleName(role))
    ensures TagValue(RoleTags(role, prefix, name), "exp_prefix") == Some(prefix)
    ensures TagValue(RoleTags(role, prefix, name), "exp_name") == Some(name)
  {
    var t := RoleTags(role, prefix, name);
    assert |"Name"| == 4 && |"es_dist_role"| == 12 && |"exp_prefix"| == 10 && |"exp_name"| == 8;
    assert t[1..][0] == t[1] && t[1..][1..][0] == t[2] && t[1..][1..][1..][0] == t[3];
    assert TagValue(t, "es_dist_role") == TagValue(t[1..], "es_dist_role");
    assert TagValue(t, "exp_prefix") == TagValue(t[1..][1..], "exp_prefix");
    assert TagValue(t, "exp_name") == TagValue(t[1..], "exp_name");
    assert TagValue(t[1..], "exp_name") == TagValue(t[1..][1..], "exp_name");
    assert TagValue(t[1..][1..], "exp_name") == TagValue(t[1..][1..][1..], "exp_name");
  }

  /** The page where the launched instances can be managed. */
  function ConsoleUrl(region: string): string {
    "https://" + region + ".console.aws.amazon.com/ec2/v2/home?region=" + region + "#Instances:sort=tag:Name"
  }

  /** How Python formats an optional address into text: `None` prints as "None". */
  function AddressText(address: Option<string>): string {
    address.GetOr("None")
  }

  function MasterSpec(o: Options, image: Option<string>): InstanceSpec {
    InstanceSpec(image, o.keyName, o.masterInstanceType, true, [o.securityGroup])
  }

  function WorkerSpec(o: Options, image: Option<string>): InstanceSpec {
    InstanceSpec(image, o.keyName, o.workerInstanceType, true, [o.securityGroup])
  }

  /** Whether the master comes up: always on demand; for a spot master, one request that is fulfilled. */
  predicate MasterReady(o: Options, p: Responses) {
    !o.spotMaster || (|p.spotRequestIds| == 1 && p.spotFulfilled)
  }

  /** The instance the provider hands out as the master. */
  function MasterOf(o: Options, p: Responses): Instance {
    if o.spotMaster then p.spotInstance else p.createdInstance
  }

  /** The calls that bring up the master, and the master they bring up. */
  datatype MasterStart = MasterStart(trace: seq<Event>, result: Result<Instance, Failure>)

  /**
   * Starts the master with `userData`: either one spot request, which must
   * come back as exactly one request id and is then awaited and described,
   * or one on-demand creation of exactly one instance.
   */
  function StartMaster(o: Options, image: Option<string>, userData: Boot, p: Responses): (s: MasterStart)
    ensures s.result.Success? <==> MasterReady(o, p)
    ensures s.result.Success? ==> s.result.value == MasterOf(o, p)
    ensures s.result.Failure? ==>
      s.result.error == (if |p.spotRequestIds| != 1 then SpotRequestCount(|p.spotRequestIds|)
                         else SpotNotFulfilled(p.spotRequestIds[0]))
    ensures |s.trace| == (if !o.spotMaster || |p.spotRequestIds| != 1 then 1 else if p.spotFulfilled then 3 else 2)
    ensures s.trace[0] == if o.spotMaster then RequestSpotInstances(o.spotPrice, 1, MasterSpec(o, image), o.zone, userData)
                          else CreateInstances(MasterSpec(o, image), 1, 1, o.zone, userData)
    ensures |s.trace| >= 2 ==> s.trace[1] == WaitSpotFulfilled(p.spotRequestIds[0])
    ensures |s.trace| == 3 ==> s.trace[2] == DescribeSpotRequest(p.spotRequestIds[0])
  {
    var spec := MasterSpec(o, image);
    if o.spotMaster then
      var request := RequestSpotInstances(o.spotPrice, 1, spec, o.zone, userData);
      if |p.spotRequestIds| != 1 then
        MasterStart([request], Failure(SpotRequestCount(|p.spotRequestIds|)))
      else
        var id := p.spotRequestIds[0];
        var calls := [request, WaitSpotFulfilled(id)];
        if !p.spotFulfilled then MasterStart(calls, Failure(SpotNotFulfilled(id)))
        else MasterStart(calls + [DescribeSpotRequest(id)], Success(p.spotInstance))
    else
      MasterStart([CreateInstances(spec, 1, 1, o.zone, userData)], Success(p.createdInstance))
  }

  /**
   * The workers' calls, booting each worker with `userData`: the launch
   * configuration, then, if it was accepted, the scaling group.
   */
  function CreateFleet(o: Options, image: Option<string>, prefix: string, name: string, userData: Boot,
                       p: Responses): (r: Run)
    ensures |r.trace| == (if p.configStatus == Ok then 2 else 1)
    ensures r.trace[0] == CreateLaunchConfiguration(name, WorkerSpec(o, image), userData, o.spotPrice)
    ensures |r.trace| == 2 ==>
      var g := r.trace[1];
      && g.CreateAutoScalingGroup?
      && g.groupName == g.configName == name
      && g.minSize == g.maxSize == g.desiredCapacity == o.clusterSize
      && g.zones == [o.zone] && g.cooldown == 0
      && g.tags == RoleTags(Worker, prefix, name)
    ensures r.outcome.Launched? <==> p.configStatus == Ok && p.groupStatus == Ok
    ensures r.outcome.Launched? ==> r.outcome.runName == name
    ensures r.outcome.Failed? ==>
      r.outcome.failure == (if p.configStatus != Ok then ConfigRejected(p.configStatus) else GroupRejected(p.groupStatus))
  {
    var config := CreateLaunchConfiguration(name, WorkerSpec(o, image), userData, o.spotPrice);
    if p.configStatus != Ok then
      Run([config], Failed(ConfigRejected(p.configStatus)))
    else
      var group := CreateAutoScalingGroup(
        name, name, o.clusterSize, o.clusterSize, o.clusterSize, [o.zone], 0, RoleTags(Worker, prefix, name));
      var outcome := if p.groupStatus != Ok then Failed(GroupRejected(p.groupStatus))
                     else Launched(name, ConsoleUrl(o.region));
      Run([config, group], outcome)
  }

  /** The image a launch uses once its region is in the map. */
  function ImageFor(o: Options, env: Environment): Option<string>
    requires o.region in env.amiMap
  {
    ResolveImage(env.amiMap, o.region, env.awsAmi).value
  }

  /** The call that tags the master within an experiment's launch. */
  function MasterTagging(o: Options, exp: Experiment, stamp: string, p: Responses): Event {
    CreateTags(MasterOf(o, p).id, RoleTags(Master, exp.prefix, RunName(exp.prefix, stamp)))
  }

  /**
   * The calls made when the launcher first reads the master's addresses, to
   * print its public one. A spot master's handle is built from its instance
   * id alone, so that read describes the instance, and the private address
   * read later comes from the same description. An on-demand master's handle
   * already holds what its creation returned.
   */
  function AddressLookup(o: Options, p: Responses): seq<Event> {
    if o.spotMaster then [DescribeInstance(MasterOf(o, p).id)] else []
  }

  /** The workers' boot script: it points them at the master's private address, as Python formats it. */
  function WorkerBootFor(o: Options, p: Responses): Boot {
    WorkerBoot(AddressText(MasterOf(o, p).privateIp), o.algorithm)
  }

  /** One experiment's launch, stamped `stamp`, against a provider answering `p`. */
  function LaunchExperiment(o: Options, env: Environment, exp: Experiment, stamp: string, p: Responses)
    : (run: Run)
    ensures run.trace == [] <==> o.region !in env.amiMap
    ensures o.region !in env.amiMap ==> run.outcome == Failed(ImageLookupFailed(o.region))
    ensures run.outcome.Launched? ==>
      run.outcome.runName == RunName(exp.prefix, stamp) && run.outcome.consoleUrl == ConsoleUrl(o.region)
  {
    if o.region !in env.amiMap then Run([], Failed(ImageLookupFailed(o.region)))
    else
      var image := ImageFor(o, env);
      var master := StartMaster(o, image, MasterBoot(exp.text, o.algorithm), p);
      match master.result
      case Failure(f) => Run(master.trace, Failed(f))
      case Success(_) =>
        var name := RunName(exp.prefix, stamp);
        var fleet := CreateFleet(o, image, exp.prefix, name, WorkerBootFor(o, p), p);
        Run(master.trace + [MasterTagging(o, exp, stamp, p)] + AddressLookup(o, p) + fleet.trace, fleet.outcome)
  }
}

=== FILE: launch_properties.dfy ===
/**
 * Properties of one experiment's launch trace: which calls happen, how many
 * times, in which order, and with which names, sizes, tags and boot scripts.
 */
module LaunchProperties {
  import opened Wrappers
  import opened Text
  import opened BootScripts
  import opened ImageResolver
  import opened Trace
  import opened Launch

  /** Counts of a trace shaped like the workers' calls. */
  lemma FleetShapeCounts(t: seq<Event>, k: Kind)
    requires 1 <= |t| <= 2 && KindOf(t[0]) == ConfigCreate
    requires |t| == 2 ==> KindOf(t[1]) == GroupCreate
    ensures Count(t, k) == (if k == ConfigCreate then 1 else 0) + (if k == GroupCreate && |t| == 2 then 1 else 0)
  {
    CountCalls(t);
  }

  /** The workers' calls: one launch configuration, and a scaling group only when it was accepted. */
  lemma FleetCounts(o: Options, image: Option<string>, prefix: string, name: string, userData: Boot,
                    p: Responses, k: Kind)
    ensures Count(CreateFleet(o, image, prefix, name, userData, p).trace, k)
         == (if k == ConfigCreate then 1 else 0) + (if k == GroupCreate && p.configStatus == Ok then 1 else 0)
  {
    var t := CreateFleet(o, image, prefix, name, userData, p).trace;
    assert KindOf(t[0]) == ConfigCreate;
    if |t| == 2 {
      assert KindOf(t[1]) == GroupCreate;
    }
    FleetShapeCounts(t, k);
  }

  /**
   * How many calls of kind `k` starting the master makes: the spot request
   * or the on-demand creation; for a spot request that came back as one id,
   * the wait; and once it is fulfilled, the description.
   */
  function MasterCallCount(o: Options, p: Responses, k: Kind): nat {
    var single := o.spotMaster && |p.spotRequestIds| == 1;
    (if k == (if o.spotMaster then SpotRequest else InstanceCreate) then 1 else 0)
    + (if k == SpotWait && single then 1 else 0)
    + (if k == SpotDescribe && single && p.spotFulfilled then 1 else 0)
  }

  /** Starting the master makes exactly the calls `MasterCallCount` counts. */
  lemma MasterCounts(o: Options, image: Option<string>, userData: Boot, p: Responses, k: Kind)
    ensures Count(StartMaster(o, image, userData, p).trace, k) == MasterCallCount(o, p, k)
  {
    var t := StartMaster(o, image, userData, p).trace;
    assert KindOf(t[0]) == if o.spotMaster then SpotRequest else InstanceCreate;
    if |t| >= 2 {
      assert KindOf(t[1]) == SpotWait;
    }
    if |t| == 3 {
      assert KindOf(t[2]) == SpotDescribe;
    }
    CountCalls(t);
  }

  /** Whether a call is one of those that start the master. */
  predicate StartsMaster(e: Event) {
    e.RequestSpotInstances? || e.WaitSpotFulfilled? || e.DescribeSpotRequest? || e.CreateInstances?
  }

  /** The master's calls in a launch whose region is mapped. */
  function MasterPart(o: Options, env: Environment, exp: Experiment, p: Responses): seq<Event>
    requires o.region in env.amiMap
  {
    StartMaster(o, ImageFor(o, env), MasterBoot(exp.text, o.algorithm), p).trace
  }

  /** The calls between the master's start and the workers' calls: its tagging and the reading of its addresses. */
  function TagAndLookup(o: Options, exp: Experiment, stamp: string, p: Responses): seq<Event> {
    [MasterTagging(o, exp, stamp, p)] + AddressLookup(o, p)
  }

  /** The workers' calls in a launch whose region is mapped. */
  function FleetPart(o: Options, env: Environment, exp: Experiment, stamp: string, p: Responses): seq<Event>
    requires o.region in env.amiMap
  {
    CreateFleet(o, ImageFor(o, env), exp.prefix, RunName(exp.prefix, stamp), WorkerBootFor(o, p), p).trace
  }

  /**
   * The calls of a launch whose region is mapped: the master's start; then,
   * once the master is up, its tagging, the reading of its addresses and the
   * workers' calls.
   */
  lemma LaunchTraceShape(o: Options, env: Environment, exp: Experiment, stamp: string, p: Responses)
    requires o.region in env.amiMap
    ensures LaunchExperiment(o, env, exp, stamp, p).trace
         == if MasterReady(o, p)
            then MasterPart(o, env, exp, p) + TagAndLookup(o, exp, stamp, p) + FleetPart(o, env, exp, stamp, p)
            else MasterPart(o, env, exp, p)
  {
    if MasterReady(o, p) {
      var tag := MasterTagging(o, exp, stamp, p);
      var m := MasterPart(o, env, exp, p);
      assert m + [tag] + AddressLookup(o, p) == m + ([tag] + AddressLookup(o, p));
    }
  }

  /**
   * Before the workers' calls, a launch only starts, tags and describes its
   * master: the master's start holds only calls that start a master, and
   * what follows it is the tagging and the description.
   */
  lemma BeforeFleetKinds(o: Options, env: Environment, exp: Experiment, stamp: string, p: Responses)
    requires o.region in env.amiMap
    ensures forall i :: 0 <= i < |MasterPart(o, env, exp, p)| ==> StartsMaster(MasterPart(o, env, exp, p)[i])
    ensures forall i :: 0 <= i < |TagAndLookup(o, exp, stamp, p)| ==>
      TagAndLookup(o, exp, stamp, p)[i].CreateTags? || TagAndLookup(o, exp, stamp, p)[i].DescribeInstance?
  {
    assert |MasterPart(o, env, exp, p)| <= 3;
  }

  /** Counts of a master's calls, a tagging, an address lookup and the workers' calls in a row. */
  lemma StageCounts(m: seq<Event>, tag: Event, d: seq<Event>, f: seq<Event>, k: Kind)
    ensures Count(m + ([tag] + d) + f, k) == Count(m, k) + (if KindOf(tag) == k then 1 else 0) + Count(d, k) + Count(f, k)
  {
    CountAppend(m + ([tag] + d), f, k);
    CountAppend(m, [tag] + d, k);
    CountAppend([tag], d, k);
    CountOne(tag, k);
  }

  /** Reading the master's addresses describes the instance once for a spot master and never otherwise. */
  lemma AddressLookupCounts(o: Options, p: Responses, k: Kind)
    ensures Count(AddressLookup(o, p), k) == if k == InstanceDescribe && o.spotMaster then 1 else 0
  {
    if o.spotMaster {
      CountOne(DescribeInstance(MasterOf(o, p).id), k);
    }
  }

  /**
   * A launch's calls are the master's, then, once the master is up, its
   * tagging, for a spot master the description of the instance, and the
   * workers' calls.
   */
  lemma LaunchCounts(o: Options, env: Environment, exp: Experiment, stamp: string, p: Responses,
                     k: Kind)
    requires o.region in env.amiMap
    ensures Count(LaunchExperiment(o, env, exp, stamp, p).trace, k)
         == MasterCallCount(o, p, k)
            + (if MasterReady(o, p)
               then (if k == Tagging then 1 else 0) + (if k == InstanceDescribe && o.spotMaster then 1 else 0)
                    + (if k == ConfigCreate then 1 else 0)
                    + (if k == GroupCreate && p.configStatus == Ok then 1 else 0)
               else 0)
  {
    LaunchTraceShape(o, env, exp, stamp, p);
    MasterCounts(o, ImageFor(o, env), MasterBoot(exp.text, o.algorithm), p, k);
    if MasterReady(o, p) {
      var tag := MasterTagging(o, exp, stamp, p);
      StageCounts(MasterPart(o, env, exp, p), tag, AddressLookup(o, p), FleetPart(o, env, exp, stamp, p), k);
      AddressLookupCounts(o, p, k);
      FleetCounts(o, ImageFor(o, env), exp.prefix, RunName(exp.prefix, stamp), WorkerBootFor(o, p), p, k);
    }
  }

  /**
   * A spot master is asked for with exactly one spot request for one
   * instance, as the launch's first call, and no instance is created on demand.
   */
  lemma SpotMasterCalls(o: Options, env: Environment, exp: Experiment, stamp: string, p: Responses)
    requires o.spotMaster && o.region in env.amiMap
    ensures var t := LaunchExperiment(o, env, exp, stamp, p).trace;
      && Count(t, SpotRequest) == 1 && Count(t, InstanceCreate) == 0
      && t[0] == RequestSpotInstances(o.spotPrice, 1, MasterSpec(o, ImageFor(o, env)), o.zone, MasterBoot(exp.text, o.algorithm))
  {
    LaunchCounts(o, env, exp, stamp, p, SpotRequest);
    LaunchCounts(o, env, exp, stamp, p, InstanceCreate);
  }

  /**
   * Unless the spot request comes back as exactly one request id, the launch
   * stops right after it: nothing is awaited, tagged or configured.
   */
  lemma SpotRequestGuard(o: Options, env: Environment, exp: Experiment, stamp: string, p: Responses)
    requires o.spotMaster && o.region in env.amiMap && |p.spotRequestIds| != 1
    ensures var run := LaunchExperiment(o, env, exp, stamp, p);
      && run.outcome == Failed(SpotRequestCount(|p.spotRequestIds|))
      && |run.trace| == 1 && KindOf(run.trace[0]) == SpotRequest
  {
  }

  /**
   * An on-demand master is created as exactly one instance (at least one and
   * at most one), as the launch's first call, and no spot request is made or awaited.
   */
  lemma OnDemandMasterCalls(o: Options, env: Environment, exp: Experiment, stamp: string, p: Responses)
    requires !o.spotMaster && o.region in env.amiMap
    ensures var t := LaunchExperiment(o, env, exp, stamp, p).trace;
      && Count(t, InstanceCreate) == 1 && Count(t, SpotRequest) == 0 && Count(t, SpotWait) == 0
      && t[0] == CreateInstances(MasterSpec(o, ImageFor(o, env)), 1, 1, o.zone, MasterBoot(exp.text, o.algorithm))
  {
    LaunchCounts(o, env, exp, stamp, p, InstanceCreate);
    LaunchCounts(o, env, exp, stamp, p, SpotRequest);
    LaunchCounts(o, env, exp, stamp, p, SpotWait);
  }

  /**
   * A spot request is awaited only when it came back as exactly one request
   * id, and only that request is awaited, right after it was made.
   */
  lemma WaitFollowsSingleRequest(o: Options, env: Environment, exp: Experiment, stamp: string, p: Responses)
    ensures var t := LaunchExperiment(o, env, exp, stamp, p).trace;
      Count(t, SpotWait) > 0 ==>
        && o.spotMaster && |p.spotRequestIds| == 1
        && |t| >= 2 && KindOf(t[0]) == SpotRequest && t[1] == WaitSpotFulfilled(p.spotRequestIds[0])
        && Precedes(t, SpotRequest, SpotWait)
  {
    var t := LaunchExperiment(o, env, exp, stamp, p).trace;
    if o.region in env.amiMap {
      LaunchCounts(o, env, exp, stamp, p, SpotWait);
      if Count(t, SpotWait) > 0 {
        assert KindOf(t[0]) == SpotRequest;
        forall j | 0 <= j < |t| && KindOf(t[j]) == SpotWait
          ensures exists i :: 0 <= i < j && KindOf(t[i]) == SpotRequest
        {
          assert j != 0;
          assert KindOf(t[0]) == SpotRequest;
        }
      }
    }
  }

  /**
   * The workers' launch configuration is made only once the master is up,
   * and the calls before it are exactly the master's start, its tagging and
   * the reading of its addresses. It is named after the run and boots with
   * the workers' script.
   */
  lemma ConfigFollowsMasterTagging(o: Options, env: Environment, exp: Experiment, stamp: string, p: Responses)
    ensures var t := LaunchExperiment(o, env, exp, stamp, p).trace;
      forall j :: 0 <= j < |t| && t[j].CreateLaunchConfiguration? ==>
        && o.region in env.amiMap && MasterReady(o, p)
        && t[..j] == MasterPart(o, env, exp, p) + TagAndLookup(o, exp, stamp, p)
        && t[j] == CreateLaunchConfiguration(RunName(exp.prefix, stamp), WorkerSpec(o, ImageFor(o, env)), WorkerBootFor(o, p), o.spotPrice)
  {
    var t := LaunchExperiment(o, env, exp, stamp, p).trace;
    if o.region in env.amiMap {
      LaunchTraceShape(o, env, exp, stamp, p);
      BeforeFleetKinds(o, env, exp, stamp, p);
      if MasterReady(o, p) {
        var pre := MasterPart(o, env, exp, p) + TagAndLookup(o, exp, stamp, p);
        assert t == pre + FleetPart(o, env, exp, stamp, p);
        assert t[..|pre|] == pre;
      }
    }
  }

  /**
   * Only a spot master's instance is described: once, right after it was
   * tagged, by its instance id.
   */
  lemma AddressLookupFollowsTagging(o: Options, env: Environment, exp: Experiment, stamp: string, p: Responses)
    ensures var t := LaunchExperiment(o, env, exp, stamp, p).trace;
      forall j :: 0 <= j < |t| && t[j].DescribeInstance? ==>
        && o.spotMaster && o.region in env.amiMap && MasterReady(o, p)
        && t[j] == DescribeInstance(MasterOf(o, p).id)
        && 1 <= j && t[j - 1] == MasterTagging(o, exp, stamp, p)
  {
    var t := LaunchExperiment(o, env, exp, stamp, p).trace;
    if o.region in env.amiMap {
      LaunchTraceShape(o, env, exp, stamp, p);
      BeforeFleetKinds(o, env, exp, stamp, p);
      if MasterReady(o, p) {
        assert t == MasterPart(o, env, exp, p) + TagAndLookup(o, exp, stamp, p) + FleetPart(o, env, exp, stamp, p);
      }
    }
  }

  /** A launch configures its workers once the master is up, and creates their group once the configuration is accepted. */
  lemma FleetCallCounts(o: Options, env: Environment, exp: Experiment, stamp: string, p: Responses)
    ensures var t := LaunchExperiment(o, env, exp, stamp, p).trace;
      && Count(t, GroupCreate) == (if o.region in env.amiMap && MasterReady(o, p) && p.configStatus == Ok then 1 else 0)
      && Count(t, ConfigCreate) == (if o.region in env.amiMap && MasterReady(o, p) then 1 else 0)
  {
    if o.region in env.amiMap {
      LaunchCounts(o, env, exp, stamp, p, GroupCreate);
      LaunchCounts(o, env, exp, stamp, p, ConfigCreate);
    }
  }

  /** A scaling group is the launch's last call and follows the configuration it names. */
  lemma GroupIsLastCall(o: Options, env: Environment, exp: Experiment, stamp: string, p: Responses)
    ensures var t := LaunchExperiment(o, env, exp, stamp, p).trace;
      forall j :: 0 <= j < |t| && t[j].CreateAutoScalingGroup? ==>
        j == |t| - 1 && 1 <= j && t[j - 1].CreateLaunchConfiguration? && t[j].configName == t[j - 1].name
  {
    var t := LaunchExperiment(o, env, exp, stamp, p).trace;
    if o.region in env.amiMap {
      LaunchTraceShape(o, env, exp, stamp, p);
      BeforeFleetKinds(o, env, exp, stamp, p);
      if MasterReady(o, p) {
        assert t == (MasterPart(o, env, exp, p) + TagAndLookup(o, exp, stamp, p)) + FleetPart(o, env, exp, stamp, p);
      }
    }
  }

  /**
   * The scaling group is created once, and only when the master came up and
   * the launch configuration was accepted; it is the launch's last call and
   * follows the configuration it names.
   */
  lemma GroupOnlyAfterAcceptedConfig(o: Options, env: Environment, exp: Experiment, stamp: string,
                                     p: Responses)
    ensures var t := LaunchExperiment(o, env, exp, stamp, p).trace;
      && Count(t, GroupCreate) == (if o.region in env.amiMap && MasterReady(o, p) && p.configStatus == Ok then 1 else 0)
      && Count(t, ConfigCreate) == (if o.region in env.amiMap && MasterReady(o, p) then 1 else 0)
      && forall j :: 0 <= j < |t| && t[j].CreateAutoScalingGroup? ==>
           j == |t| - 1 && 1 <= j && t[j - 1].CreateLaunchConfiguration? && t[j].configName == t[j - 1].name
  {
    FleetCallCounts(o, env, exp, stamp, p);
    GroupIsLastCall(o, env, exp, stamp, p);
  }

  /** A launch succeeds exactly when the image is found, the master comes up and both workers' calls are accepted. */
  lemma LaunchedIff(o: Options, env: Environment, exp: Experiment, stamp: string, p: Responses)
    ensures LaunchExperiment(o, env, exp, stamp, p).outcome.Launched?
        <==> o.region in env.amiMap && MasterReady(o, p) && p.configStatus == Ok && p.groupStatus == Ok
  {
    if o.region in env.amiMap {
      var master := StartMaster(o, ImageFor(o, env), MasterBoot(exp.text, o.algorithm), p);
      assert master.result.Success? <==> MasterReady(o, p);
    }
  }

  /**
   * How a launch ends, case by case in the order the launcher meets them:
   * the image lookup, the spot request's id count, its fulfilment, the
   * launch configuration's status, the scaling group's status.
   */
  lemma OutcomeTable(o: Options, env: Environment, exp: Experiment, stamp: string, p: Responses)
    ensures LaunchExperiment(o, env, exp, stamp, p).outcome
         == if o.region !in env.amiMap then Failed(ImageLookupFailed(o.region))
            else if o.spotMaster && |p.spotRequestIds| != 1 then Failed(SpotRequestCount(|p.spotRequestIds|))
            else if o.spotMaster && !p.spotFulfilled then Failed(SpotNotFulfilled(p.spotRequestIds[0]))
            else if p.configStatus != Ok then Failed(ConfigRejected(p.configStatus))
            else if p.groupStatus != Ok then Failed(GroupRejected(p.groupStatus))
            else Launched(RunName(exp.prefix, stamp), ConsoleUrl(o.region))
  {
    LaunchedIff(o, env, exp, stamp, p);
  }

  /**
   * The workers' group holds exactly `cluster_size` machines, in the chosen
   * zone, named after the run, with no cooldown, tagged as the run's workers.
   */
  lemma FleetSizing(o: Options, env: Environment, exp: Experiment, stamp: string, p: Responses)
    ensures var t := LaunchExperiment(o, env, exp, stamp, p).trace;
      forall j :: 0 <= j < |t| && t[j].CreateAutoScalingGroup? ==>
        var g := t[j];
        && g.minSize == g.maxSize == g.desiredCapacity == o.clusterSize
        && g.groupName == g.configName == RunName(exp.prefix, stamp)
        && g.zones == [o.zone] && g.cooldown == 0
        && g.tags == RoleTags(Worker, exp.prefix, RunName(exp.prefix, stamp))
  {
    var t := LaunchExperiment(o, env, exp, stamp, p).trace;
    if o.region in env.amiMap {
      LaunchTraceShape(o, env, exp, stamp, p);
      BeforeFleetKinds(o, env, exp, stamp, p);
      if MasterReady(o, p) {
        assert t == (MasterPart(o, env, exp, p) + TagAndLookup(o, exp, stamp, p)) + FleetPart(o, env, exp, stamp, p);
      }
    }
  }

  /**
   * The master and the workers carry the same `exp_prefix` and `exp_name`
   * tags, the run's name, and are told apart by their `es_dist_role` tag.
   */
  lemma MasterAndWorkersShareRun(o: Options, env: Environment, exp: Experiment, stamp: string, p: Responses)
    ensures var t := LaunchExperiment(o, env, exp, stamp, p).trace;
      forall i, j :: 0 <= i < |t| && 0 <= j < |t| && t[i].CreateTags? && t[j].CreateAutoScalingGroup? ==>
        && t[i].instanceId == MasterOf(o, p).id
        && TagValue(t[i].tags, "exp_prefix") == TagValue(t[j].tags, "exp_prefix") == Some(exp.prefix)
        && TagValue(t[i].tags, "exp_name") == TagValue(t[j].tags, "exp_name") == Some(RunName(exp.prefix, stamp))
        && TagValue(t[i].tags, "es_dist_role") == Some("master")
        && TagValue(t[j].tags, "es_dist_role") == Some("worker")
  {
    var t := LaunchExperiment(o, env, exp, stamp, p).trace;
    RoleTagsAgree(exp.prefix, RunName(exp.prefix, stamp));
    if o.region in env.amiMap {
      LaunchTraceShape(o, env, exp, stamp, p);
      BeforeFleetKinds(o, env, exp, stamp, p);
      if MasterReady(o, p) {
        assert t == (MasterPart(o, env, exp, p) + TagAndLookup(o, exp, stamp, p)) + FleetPart(o, env, exp, stamp, p);
      }
    }
  }

  /** An experiment's master boots with the master script for the experiment's text and algorithm. */
  lemma MasterBootsWithExperiment(o: Options, env: Environment, exp: Experiment, stamp: string, p: Responses)
    requires o.region in env.amiMap
    ensures var t := LaunchExperiment(o, env, exp, stamp, p).trace;
      && (t[0].RequestSpotInstances? || t[0].CreateInstances?)
      && t[0].userData == MasterBoot(exp.text, o.algorithm)
  {
    if o.spotMaster {
      SpotMasterCalls(o, env, exp, stamp, p);
    } else {
      OnDemandMasterCalls(o, env, exp, stamp, p);
    }
  }

  /** The master's boot script writes the experiment's text, verbatim, to the experiment file. */
  lemma MasterBootWritesExperiment(expStr: string, algo: string)
    ensures Contains(UserData(MasterBoot(expStr, algo)), ExperimentFileWrite + expStr + "'\n")
  {
    MasterScriptShape(expStr, algo);
  }

  /** The workers' launch configuration boots them with the worker script for the master's private address. */
  lemma WorkersPointAtMaster(o: Options, env: Environment, exp: Experiment, stamp: string, p: Responses)
    ensures var t := LaunchExperiment(o, env, exp, stamp, p).trace;
      forall j :: 0 <= j < |t| && t[j].CreateLaunchConfiguration? ==>
        t[j].userData == WorkerBoot(AddressText(MasterOf(o, p).privateIp), o.algorithm)
  {
    ConfigFollowsMasterTagging(o, env, exp, stamp, p);
  }

  /**
   * A worker's boot script passes the master's address, then the algorithm,
   * then its own socket, and runs on to the end of the here-document.
   */
  lemma WorkerBootNamesMaster(masterPrivateIp: string, algo: string)
    ensures Contains(UserData(WorkerBoot(masterPrivateIp, algo)), WorkerArgs(masterPrivateIp, algo) + HereDocEnd)
  {
    WorkerArgsEndCommand(masterPrivateIp, algo);
  }

  /** The worker arguments for an unassigned address, split after the algorithm name. */
  lemma UnassignedAddressArgs(algo: string)
    ensures WorkerArgs(AddressText(None), algo) + HereDocEnd
         == ("--master_host None --algo " + algo) + (" --relay_socket_path " + RedisSocket + HereDocEnd)
  {
  }

  /**
   * When the master has no private address yet (an on-demand master is not
   * awaited before its address is read), its workers' boot script sends
   * them to the host "None".
   */
  lemma UnassignedAddressScript(algo: string)
    ensures Contains(UserData(WorkerBoot(AddressText(None), algo)), "--master_host None --algo " + algo)
  {
    WorkerArgsEndCommand(AddressText(None), algo);
    UnassignedAddressArgs(algo);
    ContainsPrefix(MakeWorkerScript(AddressText(None), algo), "--master_host None --algo " + algo,
                   " --relay_socket_path " + RedisSocket + HereDocEnd);
  }
}

=== FILE: text.dfy ===
/** Facts about strings built by concatenation: prefixes, suffixes, infixes and lines. */
module Text {

  /** `p` is a prefix of `s`. */
  predicate StartsWith(s: string, p: string) {
    p <= s
  }

  /** `q` is a suffix of `s`. */
  predicate EndsWith(s: string, q: string) {
    |q| <= |s| && s[|s| - |q|..] == q
  }

  /** `needle` appears in `s` starting at index `i`. */
  predicate OccursAt(s: string, needle: string, i: int) {
    0 <= i && i + |needle| <= |s| && s[i..i + |needle|] == needle
  }

  /** `needle` appears somewhere in `s`, verbatim. */
  predicate Contains(s: string, needle: string) {
    exists i :: 0 <= i <= |s| && OccursAt(s, needle, i)
  }

  /** The text of `lines`, each one terminated by a newline. */
  function Unlines(lines: seq<string>): string {
    if |lines| == 0 then "" else lines[0] + "\n" + Unlines(lines[1..])
  }

  lemma StartsWithConcat(p: string, rest: string)
    ensures StartsWith(p + rest, p)
  {
    assert (p + rest)[..|p|] == p;
  }

  lemma EndsWithConcat(rest: string, q: string)
    ensures EndsWith(rest + q, q)
  {
    assert (rest + q)[|rest|..] == q;
  }

  /** A string placed between two others occurs right after the first one. */
  lemma ContainsInMiddle(a: string, needle: string, b: string)
    ensures OccursAt(a + needle + b, needle, |a|)
    ensures Contains(a + needle + b, needle)
  {
    assert (a + needle + b)[|a|..|a| + |needle|] == needle;
    assert 0 <= |a| <= |a + needle + b| && OccursAt(a + needle + b, needle, |a|);
  }

  /** Text that occurs in `s` still occurs once `s` is surrounded by more text. */
  lemma ContainsWiden(a: string, s: string, b: string, needle: string)
    requires Contains(s, needle)
    ensures Contains(a + s + b, needle)
  {
    var i :| 0 <= i <= |s| && OccursAt(s, needle, i);
    assert (a + s + b)[|a| + i..|a| + i + |needle|] == s[i..i + |needle|];
    assert OccursAt(a + s + b, needle, |a| + i);
  }

  /** Infix is transitive: text inside an infix of `s` is inside `s`. */
  lemma ContainsTransitive(s: string, mid: string, needle: string)
    requires Contains(s, mid)
    requires Contains(mid, needle)
    ensures Contains(s, needle)
  {
    var i :| 0 <= i <= |s| && OccursAt(s, mid, i);
    var j :| 0 <= j <= |mid| && OccursAt(mid, needle, j);
    forall k | 0 <= k < |needle|
      ensures s[i + j + k] == needle[k]
    {
      assert s[i + j + k] == s[i..i + |mid|][j + k] == mid[j + k];
      assert mid[j + k] == mid[j..j + |needle|][k];
    }
    assert s[i + j..i + j + |needle|] == needle;
    assert OccursAt(s, needle, i + j);
  }

  /** The lines of a block can be split at any point. */
  lemma {:induction false} UnlinesAppend(xs: seq<string>, ys: seq<string>)
    ensures Unlines(xs + ys) == Unlines(xs) + Unlines(ys)
  {
    if |xs| == 0 {
      assert xs + ys == ys;
    } else {
      assert (xs + ys)[1..] == xs[1..] + ys;
      UnlinesAppend(xs[1..], ys);
    }
  }

  /**
   * Every line of a block that follows a newline appears as a whole line:
   * a newline, the line itself, and its terminating newline.
   */
  lemma {:induction false} UnlinesHasWholeLine(lines: seq<string>, i: nat)
    requires i < |lines|
    ensures Contains("\n" + Unlines(lines), "\n" + lines[i] + "\n")
  {
    var rest := Unlines(lines[1..]);
    assert "\n" + Unlines(lines) == "\n" + lines[0] + "\n" + rest;
    if i == 0 {
      ContainsInMiddle("", "\n" + lines[0] + "\n", rest);
      assert "" + ("\n" + lines[0] + "\n") + rest == "\n" + Unlines(lines);
    } else {
      UnlinesHasWholeLine(lines[1..], i - 1);
      assert lines[1..][i - 1] == lines[i];
      ContainsWiden("\n" + lines[0], "\n" + rest, "", "\n" + lines[i] + "\n");
      assert ("\n" + lines[0]) + ("\n" + rest) + "" == "\n" + Unlines(lines);
    }
  }

  /** Text that occurs in `s` still occurs once more text is appended. */
  lemma ContainsExtendRight(s: string, b: string, needle: string)
    requires Contains(s, needle)
    ensures Contains(s + b, needle)
  {
    ContainsWiden("", s, b, needle);
    assert "" + s + b == s + b;
  }

  /** The last part of a concatenation occurs in it. */
  lemma ContainsLastPart(a: string, x: string)
    ensures Contains(a + x, x)
  {
    ContainsInMiddle(a, x, "");
    assert a + x + "" == a + x;
  }

  /** A prefix of `s` stays a prefix once more text is appended. */
  lemma StartsWithExtend(s: string, b: string, p: string)
    requires StartsWith(s, p)
    ensures StartsWith(s + b, p)
  {
    assert (s + b)[..|p|] == s[..|p|];
  }

  /** The first part of a five-part text, alone and with its separator and second part, begins the text. */
  lemma FivePartsStart(p: string, h: string, m: string, d: string, e: string, sep: string)
    ensures StartsWith(p + sep + h + sep + m + sep + d + sep + e, p)
    ensures StartsWith(p + sep + h + sep + m + sep + d + sep + e, p + sep + h)
  {
    var s1 := p + sep + h;
    StartsWithConcat(p, sep + h);
    assert p + (sep + h) == s1;
    StartsWithConcat(s1, "");
    assert s1 + "" == s1;
    StartsWithExtend(s1, sep, s1);
    StartsWithExtend(s1 + sep, m, s1);
    StartsWithExtend(s1 + sep + m, sep, s1);
    StartsWithExtend(s1 + sep + m + sep, d, s1);
    StartsWithExtend(s1 + sep + m + sep + d, sep, s1);
    StartsWithExtend(s1 + sep + m + sep + d + sep, e, s1);
  }

  /** The last part of a five-part text, alone and after the fourth part and a separator, ends the text. */
  lemma FivePartsEnd(p: string, h: string, m: string, d: string, e: string, sep: string)
    ensures EndsWith(p + sep + h + sep + m + sep + d + sep + e, e)
    ensures EndsWith(p + sep + h + sep + m + sep + d + sep + e, d + sep + e)
  {
    var s2 := p + sep + h + sep + m;
    EndsWithConcat(s2 + sep + d + sep, e);
    EndsWithConcat(s2 + sep, d + sep + e);
    assert (s2 + sep) + (d + sep + e) == s2 + sep + d + sep + e;
  }

  /** A text made of parts still contains `x` once `sep`, `y`, `sep` and `z` are appended. */
  lemma ContainsThroughTwo(s: string, x: string, sep: string, y: string, z: string)
    requires Contains(s, x)
    ensures Contains(s + sep + y + sep + z, x)
  {
    ContainsExtendRight(s, sep, x);
    ContainsExtendRight(s + sep, y, x);
    ContainsExtendRight(s + sep + y, sep, x);
    ContainsExtendRight(s + sep + y + sep, z, x);
  }

  /** The three middle parts of a five-part text occur in it. */
  lemma FivePartsMiddle(p: string, h: string, m: string, d: string, e: string, sep: string)
    ensures Contains(p + sep + h + sep + m + sep + d + sep + e, h)
    ensures Contains(p + sep + h + sep + m + sep + d + sep + e, m)
    ensures Contains(p + sep + h + sep + m + sep + d + sep + e, d)
  {
    var s1 := p + sep + h;
    ContainsLastPart(p + sep, h);
    ContainsThroughTwo(s1, h, sep, m, d);
    ContainsExtendRight(s1 + sep + m + sep + d, sep, h);
    ContainsExtendRight(s1 + sep + m + sep + d + sep, e, h);
    var s2 := s1 + sep + m;
    ContainsLastPart(s1 + sep, m);
    ContainsThroughTwo(s2, m, sep, d, e);
    ContainsLastPart(s2 + sep, d);
    ContainsExtendRight(s2 + sep + d, sep, d);
    ContainsExtendRight(s2 + sep + d + sep, e, d);
  }

  /**
   * Layout of a text made of five parts joined by a separator: it starts
   * with the first part, ends with the last, and contains each part.
   */
  lemma FiveParts(p: string, h: string, m: string, d: string, e: string, sep: string)
    ensures StartsWith(p + sep + h + sep + m + sep + d + sep + e, p)
    ensures StartsWith(p + sep + h + sep + m + sep + d + sep + e, p + sep + h)
    ensures EndsWith(p + sep + h + sep + m + sep + d + sep + e, e)
    ensures EndsWith(p + sep + h + sep + m + sep + d + sep + e, d + sep + e)
    ensures Contains(p + sep + h + sep + m + sep + d + sep + e, h)
    ensures Contains(p + sep + h + sep + m + sep + d + sep + e, m)
    ensures Contains(p + sep + h + sep + m + sep + d + sep + e, d)
  {
    FivePartsStart(p, h, m, d, e, sep);
    FivePartsEnd(p, h, m, d, e, sep);
    FivePartsMiddle(p, h, m, d, e, sep);
  }

  /** Both marked parts of `a + x + b + y + c` occur in it. */
  lemma TwoMarkedParts(a: string, x: string, b: string, y: string, c: string)
    ensures Contains(a + x + b + y + c, x)
    ensures Contains(a + x + b + y + c, y)
  {
    ContainsInMiddle(a, x, b + y + c);
    assert a + x + b + y + c == a + x + (b + y + c);
    ContainsInMiddle(a + x + b, y, c);
  }

  /** The end of a middle part runs on into what follows it. */
  lemma TailRunsOn(a: string, b: string, c: string, d: string)
    ensures Contains(a + (b + c) + d, c + d)
  {
    ContainsInMiddle(a + b, c + d, "");
    assert a + (b + c) + d == (a + b) + (c + d) + "";
  }

  /** A pair of newlines can be split between the text before them and the text after. */
  lemma NewlinePair(a: string, r: string)
    ensures a + "\n\n" + r == a + "\n" + ("\n" + r)
  {
    assert |a + "\n\n" + r| == |a + "\n" + ("\n" + r)|;
    forall i | 0 <= i < |a + "\n\n" + r|
      ensures (a + "\n\n" + r)[i] == (a + "\n" + ("\n" + r))[i]
    {
    }
  }

  /**
   * Blocks of lines separated by blank lines: one after the first block,
   * two after the second and one after the third.
   */
  lemma FrameJoin(pre: seq<string>, h: seq<string>, rs: seq<string>, run: seq<string>)
    ensures Unlines(pre + [""] + h + ["", ""] + rs + [""] + run)
         == Unlines(pre) + "\n" + Unlines(h) + "\n" + ("\n" + Unlines(rs)) + "\n" + Unlines(run)
  {
    var p1 := pre + [""];
    var p2 := p1 + h;
    var p3 := p2 + ["", ""];
    var p4 := p3 + rs;
    var p5 := p4 + [""];
    assert Unlines([""]) == "\n";
    assert Unlines(["", ""]) == "\n\n";
    UnlinesAppend(pre, [""]);
    UnlinesAppend(p1, h);
    UnlinesAppend(p2, ["", ""]);
    UnlinesAppend(p3, rs);
    UnlinesAppend(p4, [""]);
    UnlinesAppend(p5, run);
    var t2 := Unlines(pre) + "\n" + Unlines(h);
    assert Unlines(p2) == t2;
    assert Unlines(p4) == t2 + "\n\n" + Unlines(rs);
    NewlinePair(t2, Unlines(rs));
  }

  /** A middle part that ends in `docEnd` can be regrouped when `docEnd`, a newline and `epilogue` form a newline-led `tail`. */
  lemma FrameClose(front: string, open: string, cmd: string, docEnd: string, epilogue: string, tail: string)
    requires "\n" + tail == docEnd + "\n" + epilogue
    ensures front + (open + cmd + docEnd) + "\n" + epilogue == front + open + cmd + "\n" + tail
  {
    calc {
      front + (open + cmd + docEnd) + "\n" + epilogue;
      front + open + cmd + (docEnd + "\n" + epilogue);
      front + open + cmd + ("\n" + tail);
    }
  }

  /** Text that lacks one of the characters of `needle` cannot contain it. */
  lemma MissingCharacter(s: string, needle: string, k: int)
    requires 0 <= k < |needle| && needle[k] !in s
    ensures !Contains(s, needle)
  {
  }

  /** Text that contains a string contains every prefix of it. */
  lemma ContainsPrefix(s: string, head: string, rest: string)
    requires Contains(s, head + rest)
    ensures Contains(s, head)
  {
    ContainsInMiddle([], head, rest);
    assert [] + head + rest == head + rest;
    ContainsTransitive(s, head + rest, head);
  }
}

=== FILE: trace.dfy ===
/**
 * The provider calls the launcher makes, as events of a trace, and the
 * answers a provider gives to them. The provider itself is not modelled:
 * its answers (instance ids, addresses, status codes) are inputs.
 */
module Trace {
  import opened Wrappers
  import opened BootScripts

  /** One `{Key, Value}` tag of an instance or a scaling group. */
  datatype Tag = Tag(key: string, value: string)

  /** The instance parameters shared by the master's launch and the workers' launch configuration. */
  datatype InstanceSpec = InstanceSpec(
    imageId: Option<string>,
    keyName: string,
    instanceType: string,
    ebsOptimized: bool,
    securityGroups: seq<string>)

  /**
   * A provider call, with the arguments that matter to the launch; the user
   * data is recorded as the boot script it renders.
   */
  datatype Event =
    | RequestSpotInstances(price: Option<string>, count: nat, spec: InstanceSpec, zone: string, userData: Boot)
    | WaitSpotFulfilled(requestId: string)
    | DescribeSpotRequest(requestId: string)
    | CreateInstances(spec: InstanceSpec, minCount: nat, maxCount: nat, zone: string, userData: Boot)
    | CreateTags(instanceId: string, tags: seq<Tag>)
    | DescribeInstance(instanceId: string)
    | CreateLaunchConfiguration(name: string, spec: InstanceSpec, userData: Boot, price: Option<string>)
    | CreateAutoScalingGroup(
        groupName: string, configName: string,
        minSize: int, maxSize: int, desiredCapacity: int,
        zones: seq<string>, cooldown: int, tags: seq<Tag>)

  /** The kind of a call, without its arguments. */
  datatype Kind =
    SpotRequest | SpotWait | SpotDescribe | InstanceCreate | Tagging | InstanceDescribe | ConfigCreate | GroupCreate

  function KindOf(e: Event): Kind {
    match e
    case RequestSpotInstances(_, _, _, _, _) => SpotRequest
    case WaitSpotFulfilled(_) => SpotWait
    case DescribeSpotRequest(_) => SpotDescribe
    case CreateInstances(_, _, _, _, _) => InstanceCreate
    case CreateTags(_, _) => Tagging
    case DescribeInstance(_) => InstanceDescribe
    case CreateLaunchConfiguration(_, _, _, _) => ConfigCreate
    case CreateAutoScalingGroup(_, _, _, _, _, _, _, _) => GroupCreate
  }

  /** How many calls of kind `k` the trace holds. */
  function Count(t: seq<Event>, k: Kind): (n: nat)
    ensures n <= |t|
  {
    if |t| == 0 then 0
    else (if KindOf(t[0]) == k then 1 else 0) + Count(t[1..], k)
  }

  /** Every call of kind `later` comes after some call of kind `earlier`. */
  predicate Precedes(t: seq<Event>, earlier: Kind, later: Kind) {
    forall j :: 0 <= j < |t| && KindOf(t[j]) == later ==>
      exists i :: 0 <= i < j && KindOf(t[i]) == earlier
  }

  /** Counting distributes over the concatenation of traces. */
  lemma {:induction false} CountAppend(a: seq<Event>, b: seq<Event>, k: Kind)
    ensures Count(a + b, k) == Count(a, k) + Count(b, k)
  {
    if |a| == 0 {
      assert a + b == b;
    } else {
      assert (a + b)[1..] == a[1..] + b;
      CountAppend(a[1..], b, k);
    }
  }

  /** A single call counts once for its own kind and not for any other. */
  lemma CountOne(e: Event, k: Kind)
    ensures Count([e], k) == (if KindOf(e) == k then 1 else 0)
  {
    assert [e][1..] == [];
  }

  /** Counts of short traces, call by call. */
  lemma CountCalls(t: seq<Event>)
    requires |t| <= 3
    ensures forall k :: Count(t, k) == (if |t| > 0 && KindOf(t[0]) == k then 1 else 0)
                                     + (if |t| > 1 && KindOf(t[1]) == k then 1 else 0)
                                     + (if |t| > 2 && KindOf(t[2]) == k then 1 else 0)
  {
    if |t| > 0 {
      assert t[1..][0..] == t[1..];
      if |t| > 1 {
        assert t[1..][1..] == t[2..];
        if |t| > 2 {
          assert t[2..][1..] == [];
        }
      }
    }
  }
}

=== FILE: wrappers.dfy ===
/** Optional values and results with an error, as used throughout the launch model. */
module Wrappers {

  /** A value that may be missing; Python's `None` is `None` here. */
  datatype Option<+T> = None | Some(value: T) {

    /** The value, or `default` when there is none. */
    function GetOr(default: T): T {
      match this
      case Some(v) => v
      case None => default
    }
  }

  /** The outcome of a step that either produces a value or raises an error. */
  datatype Result<+R, +E> = Success(value: R) | Failure(error: E)
}
